=== FILE: README.md ===
# GTP session engine — a Dafny model

This project models the command-session engine of a Go-playing program that
speaks the Go Text Protocol (GTP): the `GtpConnection` class in
`gtp_connection.py`. One raw input line is applied to the session (the current
board and komi). The result is the response frames written (`= text` for a
success, `? text` for a failure, each ended by a blank line), the next session,
and how the call ended:

- it returned;
- a handler's fault escaped, as the source re-raises it;
- the process exited (`quit`).

The model is a pure function, `Engine.Step(env, line, session)`. It is built
from these parts:

- `Engine.Preprocess`: the line filtering of `get_cmd`. Blank lines and comment
  lines are dropped, a leading numeric id is removed, and the rest is split
  Python-style.
- The usage gate `Commands.ArityError`, modelled on `arg_error` and `argmap`.
- The command table `Commands.Lookup`/`Commands.Names`, modelled on `commands`.
- The fifteen handlers in `Handlers`.

A Python exception is a `Fault(message)`. `play`, `genmove` and `legal_moves`
catch every fault and answer it as a success frame (`Handlers.Catch`). Every
other handler lets the fault escape, and `get_cmd` re-raises it.

The board, the point codec (`GoBoardUtil`), and the playing agent are not part
of this model. They are collaborators, passed in as the record
`Collaborators.Env` of total functions over the opaque types `Board`, `Point`,
`Decoded` and `Komi`. A function returns a `Result` where the model lets the collaborator raise;
the operations listed under "## Left out" are taken never to raise. Apart
from that, the only property assumed of the collaborators is
`SizeCoherent(env)`, and only the size lemmas use it: a reset to `n` gives a
board of size `n`, and an accepted move keeps the size.

Modules, following the source's structure:

| file | module | contents |
|---|---|---|
| `wrappers.dfy` | `Wrappers` | `Option`, `Result` |
| `text.dfy` | `Text` | Python's `isspace`, `isdigit`, `lower`, `lstrip`, `split`, `' '.join` and the anchored `re.sub("^\d+", "")`, with the split/join round trip |
| `collaborators.dfy` | `Collaborators` | the opaque board, codec and agent |
| `framing.dfy` | `Framing` | `respond`/`error` frames and their read-back |
| `commands.dfy` | `Commands` | the command table and `argmap` |
| `handlers.dfy` | `Handlers` | the session, the handlers and `Dispatch` |
| `engine.dfy` | `Engine` | `get_cmd`: `Preprocess`, `Answer`, `Step` |
| `preprocess_properties.dfy`, `dispatch_properties.dfy`, `play_properties.dfy`, `genmove_properties.dfy`, `board_properties.dfy` | | the lemmas |

`PreprocessProperties.StepOfTokens` says that `Step` on a line is `Answer` on
the line's tokens. The lemmas in `DispatchProperties` are stated about
`Answer`, so they hold for every line that splits into the given tokens. The
lemmas in `PlayProperties`, `GenMoveProperties` and `BoardProperties` are
stated about the handlers themselves (`PlayCmd`, `GenMoveCmd`,
`SetFreeHandicapCmd`, `ClearBoardCmd`, `BoardSizeCmd`).
`DispatchProperties.ArityGatePasses` carries them over to a line exactly when
the usage gate lets the call through: `play`, `clear_board` and `boardsize`
always, `genmove` and `set_free_handicap` when they have an argument.

## Model

| member | source | states |
|---|---|---|
| `Text.IsSpace` | gtp_connection.py:116-118 | no contract of its own; `Text.LStripSpacePrefix`, `Text.SplitSpacePrefix` and `Text.SplitEmptyIffAllSpace` state how `lstrip()` and `split()` treat the characters it accepts |
| `Text.Lower` | gtp_connection.py:347-365 | no contract of its own (it models each `.lower()` call, as at lines 311 and 444 too); `Text.LowerPointwise` states its output character by character |
| `Text.LowerFixesIffNoUpper` | gtp_connection.py:347-348 | lower-casing leaves a string unchanged exactly when it holds no ASCII capital, and lower-casing twice is lower-casing once |
| `Text.LowerPointwise` | gtp_connection.py:347-348 | lower-casing keeps the length, maps each ASCII capital to the letter 32 code points on, and keeps every other character |
| `Text.LowerHasNoUpper` | gtp_connection.py:362 | no string that holds an ASCII capital is the lower-cased form of any string |
| `Text.LStrip` | gtp_connection.py:116 | `lstrip()` returns a suffix of its input; everything removed is whitespace, and what is left is empty or starts with a non-space |
| `Text.DropDigits` | gtp_connection.py:116 | `re.sub("^\d+", "", s)` returns a suffix; everything removed is a digit, and what is left is empty or starts with a non-digit |
| `Text.Word` | gtp_connection.py:118 | the first token is a whitespace-free prefix, ended by whitespace or by the end of the string |
| `Text.Split` | gtp_connection.py:118 | `split()` yields only non-empty, whitespace-free tokens; `Text.SplitIffLayout` gives its full meaning |
| `Text.SplitEmptyIffAllSpace` | gtp_connection.py:118-120 | `split()` yields nothing exactly when the string is all whitespace |
| `Text.LStripSpaceCons` | gtp_connection.py:116 | a leading whitespace character, of any kind, makes no difference to `lstrip()` |
| `Text.LStripSpacePrefix` | gtp_connection.py:116 | `lstrip()` removes exactly a leading whitespace run, however long, and nothing after it |
| `Text.WordOfToken` | gtp_connection.py:118 | a token followed by whitespace (or nothing) is read back whole as the first token |
| `Text.SplitSpaceCons` | gtp_connection.py:118 | a leading whitespace character, of any kind, makes no difference to `split()` |
| `Text.SplitSpacePrefix` | gtp_connection.py:118 | a leading whitespace run, however long, makes no difference to `split()` |
| `Text.SplitOfLStrip` | gtp_connection.py:116-118 | splitting after `lstrip()` gives the same tokens as splitting the whole string |
| `Text.SplitTokenThen` | gtp_connection.py:118 | splitting a token followed by whitespace peels off exactly that token |
| `Text.SplitJoinSpace` | gtp_connection.py:118 | `split()` inverts `' '.join` on any list of tokens, whatever trailing whitespace follows |
| `Text.JoinSpace` | gtp_connection.py:252 | no contract of its own; `Text.SplitJoinSpace` states that `split()` inverts it |
| `Text.SplitOfLayout` | gtp_connection.py:118 | tokens laid out with any whitespace runs before, between (non-empty) and after them split back into exactly those tokens |
| `Text.LayoutOfSplit` | gtp_connection.py:118 | every string is its own split laid out with whitespace runs: the ones before each token (all but the first non-empty) and one at the end |
| `Text.SplitIffLayout` | gtp_connection.py:118 | `split()` yields `ws` exactly when the string is `ws` laid out with some whitespace separators and some trailing whitespace |
| `Collaborators.Opponent` | gtp_connection.py:409 | the opponent of a colour is the other colour |
| `Framing.Render` | gtp_connection.py:164-174 | a frame is written as `=` or `?`, a space, its text and a blank line |
| `Framing.ReadRender` | gtp_connection.py:164-174 | the written form is unambiguous: reading it back gives the same frame |
| `Commands.Names` | gtp_connection.py:250-252 | no contract of its own; `Commands.KnownIffLookup` and `Commands.NamesDistinct` state that it lists exactly the registered names, each once, and `DispatchProperties.NamesSplitBack` that its joined form splits back into it |
| `Commands.Lookup` | gtp_connection.py:126-128 | a name is resolved only to the command registered under that name |
| `Commands.NamesDistinct` | gtp_connection.py:42-58 | no name is registered twice, so `list_commands` lists each name once |
| `Commands.LookupName` | gtp_connection.py:42-58 | every command can be reached through its own name |
| `Commands.MinArgs` | gtp_connection.py:62-76 | no contract of its own; `DispatchProperties.ArityErrorIff` and `DispatchProperties.UsageOnlyForKnown` state its contents |
| `Commands.ArityError` | gtp_connection.py:138-157 | no contract of its own; `DispatchProperties.ArityErrorIff` states when it stops a call and with which text |
| `Commands.KnownIffLookup` | gtp_connection.py:126-128 | a name is among the registered names exactly when dispatch finds a handler for it |
| `Engine.Preprocess` | gtp_connection.py:110-121 | a line that is dispatched is non-empty, does not start with `#`, is not blank, and gives at least one token, each non-empty and free of whitespace |
| `Engine.DropId` | gtp_connection.py:115-116 | no contract of its own; `PreprocessProperties.DropIdOfId` and `PreprocessProperties.DropIdOfIdLine` state what it removes |
| `Engine.IsStripBlank` | gtp_connection.py:110 | no contract of its own; `PreprocessProperties.BlankLineIsSilent` and `WhitespaceLineIsSilent` state that such a line answers nothing |
| `Engine.Finish` | gtp_connection.py:129-132 | no contract of its own; `DispatchProperties.AnswerOutcomes` and `AnswerDispatch` state that a handler's frames, session and stop are passed on as the step's outcome |
| `Engine.Answer` | gtp_connection.py:121-136 | no contract of its own; `DispatchProperties.AnswerOutcomes`, `UnknownCommand`, `ArityGateRejects`, `ArityGatePasses` and the command lemmas state what it answers |
| `Engine.Step` | gtp_connection.py:101-136 | no contract of its own; `PreprocessProperties.StepOfTokens`, `BlankLineIsSilent`, `WhitespaceLineIsSilent`, `CommentLineIsSilent`, `IdOnlyLineIsSilent` and `DispatchProperties.StepOutcomes` state what it answers |
| `Handlers.EndOfGame` | gtp_connection.py:409-410 | no contract of its own (the same check is at lines 470-471); `PlayProperties.PlayAccepted` and `GenMoveProperties.GenMoveLegal` state where its frame appears |
| `Handlers.ProtocolVersionCmd` | gtp_connection.py:187-189 | no contract of its own; `DispatchProperties.ProtocolVersionAnswer` states its answer |
| `Handlers.QuitCmd` | gtp_connection.py:191-194 | no contract of its own; `DispatchProperties.QuitExits` states its answer |
| `Handlers.NameCmd` | gtp_connection.py:196-198 | no contract of its own; `DispatchProperties.QueriesKeepSession` states that it keeps the session |
| `Handlers.VersionCmd` | gtp_connection.py:200-202 | no contract of its own; `DispatchProperties.QueriesKeepSession` states that it keeps the session |
| `Handlers.ClearBoardCmd` | gtp_connection.py:204-207 | no contract of its own; `DispatchProperties.ClearBoardAnswer` states what it does, and `BoardProperties.ClearBoardKeepsSize` that the size and komi are kept |
| `Handlers.BoardSizeCmd` | gtp_connection.py:209-219 | no contract of its own; `DispatchProperties.BoardSizeAnswer` states each of its outcomes, and `BoardProperties.BoardSizeSetsSize` the size it leaves |
| `Handlers.ShowBoardCmd` | gtp_connection.py:221-222 | no contract of its own; `DispatchProperties.QueriesKeepSession` states that it keeps the session |
| `Handlers.KomiCmd` | gtp_connection.py:224-234 | no contract of its own; `DispatchProperties.KomiStoresValue` states what it does |
| `Handlers.KnownCommandCmd` | gtp_connection.py:236-248 | no contract of its own; `DispatchProperties.KnownCommandAnswer` states its answer |
| `Handlers.ListCommandsCmd` | gtp_connection.py:250-252 | no contract of its own; `DispatchProperties.ListCommandsAnswer` and `NamesSplitBack` state its answer |
| `Handlers.FinalScoreCmd` | gtp_connection.py:423-428 | no contract of its own; `DispatchProperties.FinalScoreAnswer` states its answer |
| `Handlers.PlaceOne` | gtp_connection.py:265-268 | a codec fault leaves the board as it was, and any change to the board is the board's answer to a black stone at some point; `BoardProperties.AcceptedPointPlaced`, `RefusedPointSkipped` and `CodecFaultStops` state its three outcomes |
| `Handlers.SetFreeHandicapCmd` | gtp_connection.py:254-271 | no contract of its own; `BoardProperties.HandicapResult`, `HandicapPlacesOnlyBlack`, `RefusedPointSkipped` and `HandicapKeepsSize` state what it does |
| `Handlers.LegalMovesTry` | gtp_connection.py:311-314 | no contract of its own; `DispatchProperties.LegalMovesAnswer` states each of its outcomes once caught |
| `Handlers.PlayTry` | gtp_connection.py:335-412 | no contract of its own; once caught, `PlayProperties.PlayWithoutArguments`, `PlayOneArgument`, `PlayWrongColor`, `PlayReportsFaults`, `PlayUnknownCoordinate`, `PlayDecodeFault`, `PlayOutOfBounds`, `PlayColorFault`, `PlayPointFault`, `PlayRefused` and `PlayAccepted` state each of its outcomes, in the order the checks run |
| `Handlers.GenMoveTry` | gtp_connection.py:444-471 | no contract of its own; once caught, `GenMoveProperties.GenMoveWithoutArguments`, `GenMoveBadColor`, `GenMoveCheckFault`, `GenMoveIllegalEngineMove`, `GenMoveLegal` and `GenMoveLegalButRefused` state each of its outcomes, for a pass as for a move |
| `Handlers.PassFrames` | gtp_connection.py:449-452 | no contract of its own; `GenMoveProperties.GenMovePassAnnounced` states that a pass starts the answer with these two frames |
| `Handlers.Catch` | gtp_connection.py:413-417 | a caught handler never raises and keeps its session; a fault becomes one more success frame holding its message, after any frames already written |
| `Handlers.PlaceStones` | gtp_connection.py:264-270 | the handicap loop keeps the board size, and over no points it leaves the board alone |
| `Handlers.LegalMovesCmd` | gtp_connection.py:273-316 | `legal_moves` always returns normally, writes a frame and leaves the session alone |
| `Handlers.FormatAll` | gtp_connection.py:354-360 | the names list succeeds exactly when every position formats; it then holds each position's name, in order; otherwise its fault is that of the first position that does not format |
| `Handlers.PlayCmd` | gtp_connection.py:318-419 | `play` always returns normally, writes a frame and keeps the komi |
| `Handlers.GenMoveCmd` | gtp_connection.py:431-473 | `genmove` always returns normally, writes a frame and keeps the komi |
| `Handlers.Dispatch` | gtp_connection.py:126-132 | only a handler other than the three catching ones raises, and then it has written no frame; only `quit` exits; a normal return writes a frame; only `komi` changes the komi |
| `PreprocessProperties.StepOfTokens` | gtp_connection.py:118-121 | once a line's tokens are known, the line plays no further part in the answer |
| `PreprocessProperties.BlankLineIsSilent` | gtp_connection.py:110-111 | a line of spaces, tabs and carriage returns writes nothing and changes nothing |
| `PreprocessProperties.WhitespaceLineIsSilent` | gtp_connection.py:110-120 | every line of whitespace only, including the `\n` and `\r\n` of a blank line as read, writes nothing and changes nothing |
| `PreprocessProperties.CommentLineIsSilent` | gtp_connection.py:112-113 | a line whose first character is `#` writes nothing and changes nothing |
| `PreprocessProperties.IdOnlyLineIsSilent` | gtp_connection.py:115-120 | a line holding only a numeric id and whitespace writes nothing and changes nothing |
| `PreprocessProperties.DropDigitsOfId` | gtp_connection.py:116 | the regular expression removes exactly the leading id |
| `PreprocessProperties.DropIdOfId` | gtp_connection.py:110-116 | a line starting with a numeric id is neither blank nor a comment, and loses the id and the whitespace after it |
| `PreprocessProperties.DropIdOfIdLine` | gtp_connection.py:115-116 | an id and any whitespace run before a body leave exactly the body |
| `PreprocessProperties.LineTokens` | gtp_connection.py:110-121 | tokens laid out with any whitespace before, between and after them are dispatched as exactly those tokens, unless the line starts with a digit or `#` |
| `PreprocessProperties.IdLineTokens` | gtp_connection.py:115-121 | after a numeric id, the tokens of the rest of the line are dispatched, whatever whitespace separates them and whatever they start with |
| `PreprocessProperties.IdIsIgnored` | gtp_connection.py:114-121 | a numeric id in front of a command changes nothing about its answer: it is neither echoed nor checked |
| `PreprocessProperties.HashNameIsUnknown` | gtp_connection.py:42-58 | no registered name starts with `#` |
| `DispatchProperties.ArityErrorIff` | gtp_connection.py:154-157 | the usage gate stops a call exactly when it is `komi`, `known_command`, `set_free_handicap` or `genmove` with no argument, and then reports that command's usage text |
| `DispatchProperties.UsageOnlyForKnown` | gtp_connection.py:62-67 | every command with a usage text is registered |
| `DispatchProperties.AnswerOutcomes` | gtp_connection.py:121-136 | a fault escapes only from a registered command other than the three catching ones, and then no frame is written; only `quit` exits, after one empty success frame; a normal return writes at least one frame; only `komi` changes the komi |
| `DispatchProperties.StepOutcomes` | gtp_connection.py:121-136 | the same four facts for a whole line that is dispatched, decided by the line's command name |
| `DispatchProperties.UnknownCommand` | gtp_connection.py:133-136 | an unregistered name is answered with the one failure frame `Unknown command` and changes nothing, whatever its arguments |
| `DispatchProperties.IndentedHashIsUnknownCommand` | gtp_connection.py:110-136 | a `#` after any leading whitespace does not make a comment: the line is dispatched as the command `#...`, which is unknown |
| `DispatchProperties.ArityGateRejects` | gtp_connection.py:122-125 | the four gated commands given no argument get their usage text as a failure frame, and their handler does not run |
| `DispatchProperties.ArityGatePasses` | gtp_connection.py:122-128 | every other call of a registered command runs that command's handler with the arguments after the name |
| `DispatchProperties.KnownCommandAnswer` | gtp_connection.py:236-248 | `known_command X` answers `true` exactly when dispatch has a handler for `X`, else `false`, and changes nothing |
| `DispatchProperties.NameIsToken` | gtp_connection.py:42-58 | every registered name is a single whitespace-free token |
| `DispatchProperties.NamesSplitBack` | gtp_connection.py:250-252 | splitting the `list_commands` text gives back every registered name, in registration order |
| `DispatchProperties.ListCommandsAnswer` | gtp_connection.py:250-252 | `list_commands` answers the registered names joined by single spaces and changes nothing |
| `DispatchProperties.QueriesKeepSession` | gtp_connection.py:187-252 | the query commands never change the session, so repeating one gives the same answer |
| `DispatchProperties.ProtocolVersionAnswer` | gtp_connection.py:187-189 | `protocol_version` answers `2`, whatever its arguments |
| `DispatchProperties.FinalScoreAnswer` | gtp_connection.py:423-428 | `final_score` answers one empty success frame and computes no score |
| `DispatchProperties.QuitExits` | gtp_connection.py:191-194 | `quit` writes one empty success frame and then ends the process with the session unchanged |
| `DispatchProperties.ClearBoardAnswer` | gtp_connection.py:204-207 | `clear_board` replaces the board by a fresh one of the current size and answers one empty frame; a fault of the reset escapes with no frame and the session unchanged |
| `DispatchProperties.BoardSizeAnswer` | gtp_connection.py:209-219 | `boardsize N` replaces the board by a fresh one of size `int(N)` and answers one empty frame; a missing argument (IndexError), a value `int` rejects and a fault of the reset each escape with no frame and the session unchanged |
| `DispatchProperties.KomiStoresValue` | gtp_connection.py:224-234 | `komi V` stores the parsed value and changes nothing else; a value that does not parse escapes as a fault, with no frame and the session unchanged |
| `DispatchProperties.LegalMovesAnswer` | gtp_connection.py:273-316 | `legal_moves` writes exactly one frame and changes nothing. The frame is the legal-move text, or `Error:` with the fault for a missing argument, an unknown colour or a failing move generator |
| `PlayProperties.PlayWithoutArguments` | gtp_connection.py:335-338 | `play` with no argument writes two frames: its complaint, then the caught index error |
| `PlayProperties.PlayOneArgument` | gtp_connection.py:335-342 | `play` with one argument names it in a `wrong number of arguments` frame and changes nothing |
| `PlayProperties.ColorTokens` | gtp_connection.py:347-350 | the colour check accepts exactly `b`, `B`, `w` and `W` |
| `Handlers.IsColorToken` | gtp_connection.py:347-350 | no contract of its own; `PlayProperties.ColorTokens` states it |
| `PlayProperties.PlayWrongColor` | gtp_connection.py:347-350 | a first argument other than `b`/`w` (in either case) is refused as `wrong color` before the point is looked at |
| `PlayProperties.PlayUnknownCoordinate` | gtp_connection.py:354-364 | a point whose lower-cased spelling is not among the position names is refused as `wrong coordinate` |
| `PlayProperties.PlayDecodeFault` | gtp_connection.py:366-367 | a known point name the codec fails to decode is answered with the codec's message, the session unchanged |
| `PlayProperties.PlayOutOfBounds` | gtp_connection.py:367-371 | a point the codec flags as out of bounds is refused as `wrong coordinate` |
| `PlayProperties.PlayColorFault` | gtp_connection.py:374 | a colour the codec rejects, reached after the point checks, is answered with the codec's message |
| `PlayProperties.PlayPointFault` | gtp_connection.py:388-390 | a decoded point the board cannot convert is answered with the board's message |
| `PlayProperties.PlayRefused` | gtp_connection.py:401-405 | a request that passes every check but that the board refuses is answered `Illegal Move: M`, with the session unchanged |
| `PlayProperties.PlayAccepted` | gtp_connection.py:401-412 | an accepted request replaces the board with the board's answer. It writes an extra empty frame when the opponent has no move left, then the acknowledgement |
| `PlayProperties.PlayBoardChangesOnlyByAcceptedMove` | gtp_connection.py:318-419 | `play` never raises and never changes the komi. It changes the session only through an accepted request, and then the new board is the board's own answer to that request |
| `PlayProperties.PlayReportsFaults` | gtp_connection.py:413-417 | a fault while naming the positions is answered as a success frame holding the fault's message |
| `PlayProperties.PlayNeedsLowerCaseNames` | gtp_connection.py:356-362 | position names are compared with the lower-cased point but are not lower-cased themselves, so when every name holds a capital letter, `play` never moves |
| `GenMoveProperties.GenMoveWithoutArguments` | gtp_connection.py:443-444 | the handler called directly without a colour reports the index error as an `Error:` frame; no input line reaches this, since the usage gate answers a bare `genmove` first |
| `GenMoveProperties.GenMoveBadColor` | gtp_connection.py:444-445 | a colour the codec rejects is reported as an `Error:` frame with the codec's message |
| `GenMoveProperties.GenMoveCheckFault` | gtp_connection.py:455-456 | a fault of the legality check is reported as an `Error:` frame after any pass frames, the board untouched |
| `GenMoveProperties.GenMoveIllegalEngineMove` | gtp_connection.py:455-460 | an engine move or pass that the board calls illegal is named in an `Illegal move:` frame, then reported as the engine's fault, after any pass frames; a fault while naming it is reported instead; the board is untouched |
| `GenMoveProperties.GenMoveLegal` | gtp_connection.py:462-471 | a legal engine move or pass is played and named, after any pass frames. An empty frame follows when the opponent has no move left, and the board becomes the board's answer to the move; a fault while naming it is reported instead, on the new board |
| `GenMoveProperties.GenMoveLegalButRefused` | gtp_connection.py:462-471 | the result of `board.move` is ignored: a legal engine move that the board refuses is still announced as played (or its naming fault reported), on the unchanged board |
| `GenMoveProperties.GenMovePassAnnounced` | gtp_connection.py:449-452 | when the engine has no move, `genmove` first writes the pass message and an empty frame, and then at least one more frame |
| `GenMoveProperties.GenMoveBoardChangesOnlyByEngineMove` | gtp_connection.py:431-473 | `genmove` never raises and never changes the komi. It changes the board only to the board's answer to the engine's move, once the board has found that move legal |
| `BoardProperties.PlaceStonesAppend` | gtp_connection.py:264-270 | the handicap loop over `xs + ys` is the loop over `xs`, then, unless a fault stopped it, the loop over `ys` from the board reached |
| `BoardProperties.HandicapPlacesOnlyBlack` | gtp_connection.py:264-268 | whatever the points and wherever a fault stops it, the handicap loop's board is its starting board after accepted black moves only |
| `BoardProperties.AcceptedPointPlaced` | gtp_connection.py:265-267 | a point the board accepts gets a black stone, and the loop carries on from the new board |
| `BoardProperties.RefusedPointSkipped` | gtp_connection.py:265-268 | a point the board refuses is skipped: the loop carries on with the board as it was |
| `BoardProperties.CodecFaultStops` | gtp_connection.py:265-266 | a point name the codec cannot decode or convert stops the loop with that fault and the board as it was; later points are never looked at |
| `BoardProperties.HandicapResult` | gtp_connection.py:254-271 | `set_free_handicap` clears the board at its current size, then runs the loop over the points in order. It answers one empty frame, or lets the first codec fault escape while keeping the stones placed so far; either way the board is the cleared board after black moves only |
| `BoardProperties.ClearBoardKeepsSize` | gtp_connection.py:204-207 | `clear_board` keeps the board size and the komi |
| `BoardProperties.BoardSizeSetsSize` | gtp_connection.py:209-219 | `boardsize N` leaves a board of size `N`, keeps the komi and answers one empty frame |
| `BoardProperties.HandicapKeepsSize` | gtp_connection.py:254-271 | a handicap keeps the board size, whether or not it completes |
| `BoardProperties.PlayKeepsSize` | gtp_connection.py:401 | `play` keeps the board size |
| `BoardProperties.GenMoveKeepsSize` | gtp_connection.py:464 | `genmove` keeps the board size |
| `BoardProperties.OnlyBoardSizeResizes` | gtp_connection.py:42-58 | of the fifteen commands, only `boardsize` can change the board size |

## Left out

- Input and output: the read loop `start_connection`, the stdout redirection and the log-file copy (`write`, `flush`, `__del__`). Frames are returned as data, and `Framing.Render` gives their bytes.
- `__init__`'s initial session (a size-3 board and komi 0): the board is a collaborator, so the initial session is a parameter.
- `debug_msg`: it writes only to stderr, and only in debug mode. The arguments it formats (for example `str(self.board.get_twoD_board())` at lines 268, 407, 446 and 465) are taken not to fault.
- The board, `GoBoardUtil` and the agent: Go rules, the point codec, `float`/`int` parsing, board rendering and move generation are collaborator functions in `Env`.
- The randomness of `generate_random_move`: its only use, comparing with `None`, is the collaborator predicate `opponentHasMove`.
- `quit`'s `exit()`: it is modelled as the `Exited` outcome after its frame.
- Unicode behaviour of `str.lower()` and `str.isdigit()`: only ASCII letters are lower-cased and only ASCII digits count, so a line starting with a non-ASCII digit is not treated as having an id.
- The text inside `legal_moves_cmd`'s triple-quoted string (lines 286-310) and `play_cmd`'s (lines 379-387): these are string literals, not code.
- `play_cmd`'s `else` branch at lines 391-395 is not modelled. `move` is the pair returned by `move_to_coord`, and a pair is always true in Python, so the branch cannot run.
- `play_cmd` line 367 unpacks the codec's result into a pair. A result that cannot be unpacked is not modelled: the codec's result is the opaque `Decoded`, and `boundsFlag` reads its message part.
- `play_cmd` decodes the point a second time at line 388 and gets the same result. The model decodes once.
- Text.Split: only the tokens-are-tokens property is stated on the function itself. Its full meaning is the separate lemma `Text.SplitIffLayout`.
- Collaborator faults not modelled: `board.move` (lines 267, 401 and 464), `go_engine.get_move` (448), `generate_random_move` (409 and 470), `board.get_all_positions` (354) and `board.get_twoD_board` (222) are taken never to raise. The model would differ only if they did: the fault would become `= msg` in `play`, `= Error: msg` in `genmove`, and would escape from `set_free_handicap` and `showboard`.
- A move that `board.move` refuses is taken to leave the board unchanged. `Env.move` returns `None` for it and the session keeps its old board.
- Places where the code differs from the protocol's usual promise of exactly one response per command. The model follows the code:
  - a fault from a handler other than `play`, `genmove` and `legal_moves` is re-raised by `get_cmd` without a frame, and since `start_connection` does not catch it, it ends the session;
  - a `komi` or `boardsize` value that does not parse is such a fault, not an error frame;
  - `play` with no argument writes two frames;
  - `genmove` may write up to four frames (a pass);
  - a move that ends the game writes an extra empty frame.

=== FILE: board_properties.dfy ===
/** The commands that replace the board: `clear_board`, `boardsize` and
    `set_free_handicap` (gtp_connection.py:204-219, 254-271), and the
    board size each command leaves behind.
 */
module BoardProperties {
  import opened Wrappers
  import opened Collaborators
  import opened Commands
  import opened Handlers

  /** The handicap loop handles its points one at a time, in order: running
      it over `xs + ys` runs it over `xs`, and then, unless a fault stopped
      it, over `ys` from the board reached. */
  lemma {:induction false} PlaceStonesAppend(env: Env, b: Board, xs: seq<string>, ys: seq<string>)
    ensures var first := PlaceStones(env, b, xs);
      PlaceStones(env, b, xs + ys)
        == if first.fault.Some? then first else PlaceStones(env, first.board, ys)
  {
    if xs != [] {
      assert (xs + ys)[0] == xs[0];
      assert (xs + ys)[1..] == xs[1..] + ys;
      var one := PlaceOne(env, b, xs[0]);
      if one.fault.None? {
        PlaceStonesAppend(env, one.board, xs[1..], ys);
      }
    } else {
      assert xs + ys == ys;
    }
  }

  /** `b'` is reached from `b` by accepted black moves at the points `ps`,
      in order. */
  ghost predicate ByBlackMoves(env: Env, b: Board, b': Board, ps: seq<Point>)
    decreases |ps|
  {
    if ps == [] then b' == b
    else
      var next := env.move(b, Some(ps[0]), Black);
      next.Some? && ByBlackMoves(env, next.value, b', ps[1..])
  }

  /** An accepted black move in front of a run of black moves is one more. */
  lemma ByBlackMovesCons(env: Env, b: Board, p: Point, b': Board, ps: seq<Point>)
    requires env.move(b, Some(p), Black).Some?
    requires ByBlackMoves(env, env.move(b, Some(p), Black).value, b', ps)
    ensures ByBlackMoves(env, b, b', [p] + ps)
  {
    assert ([p] + ps)[0] == p && ([p] + ps)[1..] == ps;
  }

  /** The handicap loop only ever plays black stones: whatever it stops at,
      its board is the starting board after some accepted black moves. */
  lemma {:induction false} HandicapPlacesOnlyBlack(env: Env, b: Board, xs: seq<string>)
    ensures exists ps :: ByBlackMoves(env, b, PlaceStones(env, b, xs).board, ps)
    decreases |xs|
  {
    var r := PlaceStones(env, b, xs);
    if xs == [] {
      assert ByBlackMoves(env, b, r.board, []);
    } else {
      var one := PlaceOne(env, b, xs[0]);
      if one.fault.Some? || one.board == b {
        if one.fault.None? {
          HandicapPlacesOnlyBlack(env, b, xs[1..]);
        } else {
          assert ByBlackMoves(env, b, r.board, []);
        }
      } else {
        var p :| env.move(b, Some(p), Black) == Some(one.board);
        HandicapPlacesOnlyBlack(env, one.board, xs[1..]);
        var ps :| ByBlackMoves(env, one.board, r.board, ps);
        ByBlackMovesCons(env, b, p, r.board, ps);
      }
    }
  }

  /** A point the board refuses is skipped and the loop carries on with the
      board as it was. */
  lemma RefusedPointSkipped(env: Env, b: Board, x: string, rest: seq<string>)
    requires var d := env.moveToCoord(x, env.size(b));
      d.Ok? && env.coordToPoint(b, d.value).Ok?
      && env.move(b, Some(env.coordToPoint(b, d.value).value), Black).None?
    ensures PlaceStones(env, b, [x] + rest) == PlaceStones(env, b, rest)
  {
    assert ([x] + rest)[0] == x && ([x] + rest)[1..] == rest;
  }

  /** A point the board accepts gets a black stone, and the loop carries on
      from the new board. */
  lemma AcceptedPointPlaced(env: Env, b: Board, x: string, rest: seq<string>)
    requires var d := env.moveToCoord(x, env.size(b));
      d.Ok? && env.coordToPoint(b, d.value).Ok?
      && env.move(b, Some(env.coordToPoint(b, d.value).value), Black).Some?
    ensures var p := env.coordToPoint(b, env.moveToCoord(x, env.size(b)).value).value;
      PlaceStones(env, b, [x] + rest) == PlaceStones(env, env.move(b, Some(p), Black).value, rest)
  {
    assert ([x] + rest)[0] == x && ([x] + rest)[1..] == rest;
  }

  /** A point name the codec cannot decode, or cannot turn into a point,
      stops the loop with that fault and the board as it was; the points
      after it are never looked at. */
  lemma CodecFaultStops(env: Env, b: Board, x: string, rest: seq<string>)
    requires var d := env.moveToCoord(x, env.size(b));
      d.Fault? || env.coordToPoint(b, d.value).Fault?
    ensures var d := env.moveToCoord(x, env.size(b));
      var m := if d.Fault? then d.message else env.coordToPoint(b, d.value).message;
      PlaceStones(env, b, [x] + rest) == Placed(b, Some(m))
  {
    assert ([x] + rest)[0] == x;
  }

  /** `set_free_handicap` clears the board to its current size and then
      places black stones at the given points; it answers one empty frame,
      or lets the first codec fault escape, keeping the stones placed so far.
      Either way the board is the cleared board after black moves only. */
  lemma HandicapResult(env: Env, args: seq<string>, s: Session)
    requires env.reset(env.size(s.board)).Ok?
    ensures var b0 := env.reset(env.size(s.board)).value;
      var placed := PlaceStones(env, b0, args);
      SetFreeHandicapCmd(env, args, s)
        == if placed.fault.Some? then Run([], s.(board := placed.board), Raise(placed.fault.value))
           else Run([Ack], s.(board := placed.board), Normal)
    ensures exists ps :: ByBlackMoves(env, env.reset(env.size(s.board)).value,
                                      SetFreeHandicapCmd(env, args, s).session.board, ps)
  {
    HandicapPlacesOnlyBlack(env, env.reset(env.size(s.board)).value, args);
  }

  /** `clear_board` resets to the current size, so the size survives it. */
  lemma ClearBoardKeepsSize(env: Env, s: Session)
    requires SizeCoherent(env)
    ensures env.size(ClearBoardCmd(env, s).session.board) == env.size(s.board)
    ensures ClearBoardCmd(env, s).session.komi == s.komi
  {
  }

  /** `boardsize N` leaves a board of size `N`. */
  lemma BoardSizeSetsSize(env: Env, args: seq<string>, s: Session)
    requires SizeCoherent(env)
    requires |args| >= 1 && env.parseInt(args[0]).Ok?
    requires env.reset(env.parseInt(args[0]).value).Ok?
    ensures var r := BoardSizeCmd(env, args, s);
      r == Run([Ack], r.session, Normal)
      && env.size(r.session.board) == env.parseInt(args[0]).value
      && r.session.komi == s.komi
  {
  }

  /** A handicap keeps the board size, whether or not it completes. */
  lemma HandicapKeepsSize(env: Env, args: seq<string>, s: Session)
    requires SizeCoherent(env)
    ensures env.size(SetFreeHandicapCmd(env, args, s).session.board) == env.size(s.board)
  {
  }

  lemma PlayKeepsSize(env: Env, args: seq<string>, s: Session)
    requires SizeCoherent(env)
    ensures env.size(PlayCmd(env, args, s).session.board) == env.size(s.board)
  {
  }

  lemma GenMoveKeepsSize(env: Env, args: seq<string>, s: Session)
    requires SizeCoherent(env)
    ensures env.size(GenMoveCmd(env, args, s).session.board) == env.size(s.board)
  {
  }

  /** Of all the commands only `boardsize` changes the board size. */
  lemma OnlyBoardSizeResizes(env: Env, cmd: Command, args: seq<string>, s: Session)
    requires SizeCoherent(env)
    requires cmd != BoardSize
    ensures env.size(Dispatch(env, cmd, args, s).session.board) == env.size(s.board)
  {
    match cmd
    case ClearBoard => ClearBoardKeepsSize(env, s);
    case SetFreeHandicap => HandicapKeepsSize(env, args, s);
    case Play => PlayKeepsSize(env, args, s);
    case GenMove => GenMoveKeepsSize(env, args, s);
    case _ =>
  }
}

=== FILE: collaborators.dfy ===
/** The collaborators the session engine calls but does not define: the Go
    board (`board.py`), the coordinate utilities (`board_util.py`), Python's
    numeric parsers, and the playing agent. None of their rules is modelled:
    each operation is a field of `Env`, an arbitrary total function, and a
    call that may raise returns a `Result`.
 */
module Collaborators {
  import opened Wrappers

  /** The state of a `GoBoard`; the engine only ever holds and replaces it. */
  type Board(!new)

  /** A board point, as `get_all_positions` and the agent return it. */
  type Point(!new)

  /** Whatever `GoBoardUtil.move_to_coord` returns: a value the engine
      unpacks into two parts (coordinate and message) at one call site and
      indexes as two coordinates at another. */
  type Decoded

  /** A komi value, as produced by `float(...)`; never inspected. */
  type Komi

  datatype Color = Black | White

  /** `GoBoardUtil.opponent`. */
  function Opponent(c: Color): (o: Color)
    ensures o != c
  {
    match c
    case Black => White
    case White => Black
  }

  datatype Env = Env(
    /** `go_engine.name` and `go_engine.version`. */
    agentName: string,
    agentVersion: string,
    /** `board.size`. */
    size: Board -> int,
    /** `board.reset(n)`: the board it leaves behind, or a fault. */
    reset: int -> Result<Board>,
    /** `board.move(p, c)`: `Some` of the new board when the board accepts the
        move (returns true), `None` when it refuses it and stays unchanged. */
    move: (Board, Option<Point>, Color) -> Option<Board>,
    /** `board.check_legal(p, c)`. */
    checkLegal: (Board, Option<Point>, Color) -> Result<bool>,
    /** `board.get_all_positions()`. */
    allPositions: Board -> seq<Point>,
    /** `GoBoardUtil.format_point(board._point_to_coord(p))`. */
    formatPoint: (Board, Option<Point>) -> Result<string>,
    /** `GoBoardUtil.move_to_coord(text, size)`. */
    moveToCoord: (string, int) -> Result<Decoded>,
    /** Whether the message part of a decoded move equals `"bounds"`. */
    boundsFlag: Decoded -> bool,
    /** `board._coord_to_point(*decoded)`. */
    coordToPoint: (Board, Decoded) -> Result<Point>,
    /** `GoBoardUtil.color_to_int(text)`. */
    colorToInt: string -> Result<Color>,
    /** `GoBoardUtil.generate_random_move(board, c) != None`. */
    opponentHasMove: (Board, Color) -> bool,
    /** `str(GoBoardUtil.generate_legal_moves(board, c))`. */
    legalMoves: (Board, Color) -> Result<string>,
    /** `str(board.get_twoD_board())`. */
    render: Board -> string,
    /** `int(text)`. */
    parseInt: string -> Result<int>,
    /** `float(text)`. */
    parseKomi: string -> Result<Komi>,
    /** `go_engine.get_move(board, c)`; `None` is a pass. */
    getMove: (Board, Color) -> Option<Point>
  )

  /** The board behaves as a board of a fixed size: a reset to `n` leaves a
      board of size `n`, and an accepted move keeps the size. Only the
      size lemmas assume it. */
  ghost predicate SizeCoherent(env: Env) {
    && (forall n :: env.reset(n).Ok? ==> env.size(env.reset(n).value) == n)
    && (forall b, p, c :: env.move(b, p, c).Some? ==> env.size(env.move(b, p, c).value) == env.size(b))
  }
}

=== FILE: commands.dfy ===
/** The command table (`self.commands`, in registration order) and the
    argument-count table (`self.argmap`) of gtp_connection.py.
 */
module Commands {
  import opened Wrappers

  datatype Command =
    | ProtocolVersion | Quit | EngineName | BoardSize | ShowBoard | ClearBoard
    | SetKomi | Version | KnownCommand | SetFreeHandicap | GenMove
    | ListCommands | Play | FinalScore | LegalMoves

  /** The key a command is registered under. */
  function Name(c: Command): string {
    match c
    case ProtocolVersion => "protocol_version"
    case Quit => "quit"
    case EngineName => "name"
    case BoardSize => "boardsize"
    case ShowBoard => "showboard"
    case ClearBoard => "clear_board"
    case SetKomi => "komi"
    case Version => "version"
    case KnownCommand => "known_command"
    case SetFreeHandicap => "set_free_handicap"
    case GenMove => "genmove"
    case ListCommands => "list_commands"
    case Play => "play"
    case FinalScore => "final_score"
    case LegalMoves => "legal_moves"
  }

  /** The commands in the order they are registered. */
  const Registered: seq<Command> := [
    ProtocolVersion, Quit, EngineName, BoardSize, ShowBoard, ClearBoard,
    SetKomi, Version, KnownCommand, SetFreeHandicap, GenMove,
    ListCommands, Play, FinalScore, LegalMoves
  ]

  /** `list(self.commands.keys())`. */
  function Names(): seq<string> {
    seq(|Registered|, i requires 0 <= i < |Registered| => Name(Registered[i]))
  }

  /** `name in self.commands`, resolved to the command it selects. */
  function Lookup(name: string): (r: Option<Command>)
    ensures r.Some? ==> Name(r.value) == name
  {
    if name == "protocol_version" then Some(ProtocolVersion)
    else if name == "quit" then Some(Quit)
    else if name == "name" then Some(EngineName)
    else if name == "boardsize" then Some(BoardSize)
    else if name == "showboard" then Some(ShowBoard)
    else if name == "clear_board" then Some(ClearBoard)
    else if name == "komi" then Some(SetKomi)
    else if name == "version" then Some(Version)
    else if name == "known_command" then Some(KnownCommand)
    else if name == "set_free_handicap" then Some(SetFreeHandicap)
    else if name == "genmove" then Some(GenMove)
    else if name == "list_commands" then Some(ListCommands)
    else if name == "play" then Some(Play)
    else if name == "final_score" then Some(FinalScore)
    else if name == "legal_moves" then Some(LegalMoves)
    else None
  }

  /** Every command is reached through its own key. */
  lemma LookupName(c: Command)
    ensures Lookup(Name(c)) == Some(c)
  {
  }

  lemma RegisteredIsComplete(c: Command)
    ensures c in Registered
  {
  }

  /** The keys of a dictionary are distinct: each name is listed once. */
  lemma NamesDistinct(i: int, j: int)
    requires 0 <= i < |Names()| && 0 <= j < |Names()| && i != j
    ensures Names()[i] != Names()[j]
  {
    LookupName(Registered[i]);
    LookupName(Registered[j]);
  }

  /** A name is registered exactly when dispatch finds a handler for it. */
  lemma {:induction false} KnownIffLookup(name: string)
    ensures name in Names() <==> Lookup(name).Some?
  {
    var ns := Names();
    if name in ns {
      var i :| 0 <= i < |ns| && ns[i] == name;
      LookupName(Registered[i]);
    }
    if Lookup(name).Some? {
      var c := Lookup(name).value;
      RegisteredIsComplete(c);
      var i :| 0 <= i < |Registered| && Registered[i] == c;
      assert ns[i] == name;
    }
  }

  /** `self.argmap`: the minimum argument count and usage text of the
      commands that have one. */
  function MinArgs(name: string): Option<(nat, string)> {
    if name == "komi" then Some((1, "Usage: komi FLOAT"))
    else if name == "known_command" then Some((1, "Usage: known_command CMD_NAME"))
    else if name == "set_free_handicap" then Some((1, "Usage: set_free_handicap MOVE (e.g. A4)"))
    else if name == "genmove" then Some((1, "Usage: genmove {w,b}"))
    else None
  }

  /** `arg_error`: the usage text to report when `name` is given too few
      arguments, `None` when the call may proceed. */
  function ArityError(name: string, argc: nat): Option<string> {
    match MinArgs(name)
    case Some((k, usage)) => if k > argc then Some(usage) else None
    case None => None
  }
}

=== FILE: dispatch_properties.dfy ===
/** Dispatch, the usage gate and the handlers that only answer or set a
    scalar (gtp_connection.py:122-136, 138-157, 187-252, 423-428).

    The properties are stated about `Answer`, the part of `get_cmd` after
    the line has been split into tokens; `StepOfTokens` carries each of them
    over to every line that splits into those tokens.
 */
module DispatchProperties {
  import opened Wrappers
  import opened Text
  import opened Framing
  import opened Commands
  import opened Collaborators
  import opened Handlers
  import opened Engine
  import opened PreprocessProperties

  /** The usage gate only ever stops the four commands listed in `argmap`,
      and only when they have no argument at all. */
  lemma ArityErrorIff(name: string, argc: nat)
    ensures ArityError(name, argc).Some?
      <==> argc == 0 && name in ["komi", "known_command", "set_free_handicap", "genmove"]
    ensures ArityError(name, argc).Some? ==> ArityError(name, argc).value == MinArgs(name).value.1
  {
  }

  /** Every key of `argmap` is a registered command. */
  lemma UsageOnlyForKnown(name: string)
    requires MinArgs(name).Some?
    ensures Lookup(name).Some?
  {
  }

  /** What `get_cmd` can end in: a fault escapes only from a registered
      command other than `play`, `genmove` and `legal_moves`, and writes no
      frame; only `quit` exits, after acknowledging; every normal return
      writes at least one frame; and only `komi` changes the komi. */
  lemma AnswerOutcomes(env: Env, ts: seq<string>, s: Session)
    requires |ts| >= 1
    ensures var r := Answer(env, ts, s);
      && (r.outcome.Raised? ==>
            r.frames == [] && Lookup(ts[0]).Some? && Lookup(ts[0]).value !in {Play, GenMove, LegalMoves})
      && (r.outcome.Exited? ==> Lookup(ts[0]) == Some(Quit) && r == StepResult([Ack], s, Exited))
      && (r.outcome.Returned? ==> r.frames != [])
      && (r.session.komi != s.komi ==> Lookup(ts[0]) == Some(SetKomi))
  {
  }

  /** The same outcomes for a whole line, decided by its command name. */
  lemma StepOutcomes(env: Env, line: string, ts: seq<string>, s: Session)
    requires Preprocess(line) == Some(ts)
    ensures var r := Step(env, line, s);
      && (r.outcome.Raised? ==>
            r.frames == [] && Lookup(ts[0]).Some? && Lookup(ts[0]).value !in {Play, GenMove, LegalMoves})
      && (r.outcome.Exited? ==> Lookup(ts[0]) == Some(Quit) && r == StepResult([Ack], s, Exited))
      && (r.outcome.Returned? ==> r.frames != [])
      && (r.session.komi != s.komi ==> Lookup(ts[0]) == Some(SetKomi))
  {
    StepOfTokens(env, line, ts, s);
    AnswerOutcomes(env, ts, s);
  }

  /** A name outside the fifteen registered keys is answered with the fixed
      failure frame, whatever its arguments, and changes nothing. */
  lemma UnknownCommand(env: Env, ts: seq<string>, s: Session)
    requires |ts| >= 1 && ts[0] !in Names()
    ensures Answer(env, ts, s) == StepResult([Failure("Unknown command")], s, Returned)
  {
    KnownIffLookup(ts[0]);
    assert MinArgs(ts[0]).None? by {
      if MinArgs(ts[0]).Some? {
        UsageOnlyForKnown(ts[0]);
      }
    }
  }

  /** A `#` that is not the very first character does not make a comment:
      a line such as ` # x` or `\t#x` is dispatched as the command `#...`,
      which is unknown. */
  lemma IndentedHashIsUnknownCommand(env: Env, seps: seq<string>, ts: seq<string>, tail: string, s: Session)
    requires |seps| == |ts| >= 1 && Separators(seps) && AllTokens(ts) && AllSpace(tail)
    requires seps[0] != [] && ts[0][0] == '#'
    ensures Preprocess(Interleave(seps, ts) + tail) == Some(ts)
    ensures Answer(env, ts, s) == StepResult([Failure("Unknown command")], s, Returned)
  {
    LineTokens(seps, ts, tail);
    HashNameIsUnknown(ts[0]);
    KnownIffLookup(ts[0]);
    UnknownCommand(env, ts, s);
  }

  /** `komi`, `known_command`, `set_free_handicap` and `genmove` given no
      argument are answered with their usage text and their handler never
      runs. */
  lemma ArityGateRejects(env: Env, name: string, s: Session)
    requires name in ["komi", "known_command", "set_free_handicap", "genmove"]
    ensures MinArgs(name).Some?
    ensures Answer(env, [name], s) == StepResult([Failure(MinArgs(name).value.1)], s, Returned)
  {
  }

  lemma AnswerDispatch(env: Env, name: string, cmd: Command, args: seq<string>, s: Session)
    requires Lookup(name) == Some(cmd)
    requires ArityError(name, |args|).None?
    ensures Answer(env, [name] + args, s) == Finish(Dispatch(env, cmd, args, s))
  {
    assert ([name] + args)[1..] == args;
  }

  /** Every other call of a registered command reaches its handler: in
      particular `play`, `legal_moves` and `boardsize` are never rejected by
      the usage gate, whatever their argument count. */
  lemma ArityGatePasses(env: Env, cmd: Command, args: seq<string>, s: Session)
    requires |args| >= 1 || cmd !in {SetKomi, KnownCommand, SetFreeHandicap, GenMove}
    ensures Answer(env, [Name(cmd)] + args, s) == Finish(Dispatch(env, cmd, args, s))
  {
    LookupName(cmd);
    AnswerDispatch(env, Name(cmd), cmd, args, s);
  }

  /** `known_command X` answers `true` exactly when dispatch has a handler
      for `X`, and changes nothing. */
  lemma KnownCommandAnswer(env: Env, args: seq<string>, s: Session)
    requires |args| >= 1
    ensures Answer(env, ["known_command"] + args, s)
      == StepResult([Success(if Lookup(args[0]).Some? then "true" else "false")], s, Returned)
  {
    AnswerDispatch(env, "known_command", KnownCommand, args, s);
    KnownIffLookup(args[0]);
  }

  /** Command names hold only lower-case ASCII letters and underscores. */
  predicate IsNameChar(c: char) {
    'a' <= c <= 'z' || c == '_'
  }

  lemma NameChars(c: Command)
    ensures Name(c) != [] && forall i :: 0 <= i < |Name(c)| ==> IsNameChar(Name(c)[i])
  {
  }

  lemma NameIsToken(c: Command)
    ensures IsToken(Name(c))
  {
    NameChars(c);
  }

  /** Splitting the names joined by single spaces gives back every name. */
  lemma NamesSplitBack()
    ensures Split(JoinSpace(Names())) == Names()
  {
    var ns := Names();
    forall i | 0 <= i < |ns|
      ensures IsToken(ns[i])
    {
      NameIsToken(Registered[i]);
    }
    SplitJoinSpace(ns, "");
    assert JoinSpace(ns) + "" == JoinSpace(ns);
  }

  /** `list_commands` answers the registered names joined by spaces, which
      `NamesSplitBack` splits back into every name, in registration order. */
  lemma ListCommandsAnswer(env: Env, args: seq<string>, s: Session)
    ensures Answer(env, ["list_commands"] + args, s)
      == StepResult([Success(JoinSpace(Names()))], s, Returned)
  {
    AnswerDispatch(env, "list_commands", ListCommands, args, s);
  }

  /** The commands that only answer never change the session, so asking
      twice gives the same answer. */
  lemma QueriesKeepSession(env: Env, cmd: Command, args: seq<string>, s: Session)
    requires cmd in {ProtocolVersion, EngineName, Version, ShowBoard, ListCommands, FinalScore, LegalMoves}
      || (cmd == KnownCommand && |args| >= 1)
    ensures var r := Answer(env, [Name(cmd)] + args, s);
      && r.session == s
      && Answer(env, [Name(cmd)] + args, r.session) == r
  {
    ArityGatePasses(env, cmd, args, s);
  }

  lemma ProtocolVersionAnswer(env: Env, args: seq<string>, s: Session)
    ensures Answer(env, ["protocol_version"] + args, s) == StepResult([Success("2")], s, Returned)
  {
    AnswerDispatch(env, "protocol_version", ProtocolVersion, args, s);
  }

  /** `final_score` answers one empty success frame; the score is not computed. */
  lemma FinalScoreAnswer(env: Env, args: seq<string>, s: Session)
    ensures Answer(env, ["final_score"] + args, s) == StepResult([Ack], s, Returned)
  {
    AnswerDispatch(env, "final_score", FinalScore, args, s);
  }

  /** `quit` acknowledges and ends the process. */
  lemma QuitExits(env: Env, args: seq<string>, s: Session)
    ensures Answer(env, ["quit"] + args, s) == StepResult([Ack], s, Exited)
  {
    AnswerDispatch(env, "quit", Quit, args, s);
  }

  /** `komi V` stores the parsed value and nothing else; a value `float`
      rejects escapes as a fault with the session unchanged. */
  lemma KomiStoresValue(env: Env, args: seq<string>, s: Session)
    requires |args| >= 1
    ensures env.parseKomi(args[0]).Ok? ==>
      Answer(env, ["komi"] + args, s) == StepResult([Ack], s.(komi := env.parseKomi(args[0]).value), Returned)
    ensures env.parseKomi(args[0]).Fault? ==>
      Answer(env, ["komi"] + args, s) == StepResult([], s, Raised(env.parseKomi(args[0]).message))
  {
    AnswerDispatch(env, "komi", SetKomi, args, s);
  }

  /** `clear_board` replaces the board by a fresh one of the same size and
      answers one empty frame; a fault of the reset escapes with no frame
      and the session unchanged. */
  lemma ClearBoardAnswer(env: Env, args: seq<string>, s: Session)
    ensures var r := Answer(env, ["clear_board"] + args, s);
      match env.reset(env.size(s.board))
      case Ok(b) => r == StepResult([Ack], s.(board := b), Returned)
      case Fault(m) => r == StepResult([], s, Raised(m))
  {
    AnswerDispatch(env, "clear_board", ClearBoard, args, s);
  }

  /** `boardsize N` replaces the board by a fresh one of size `int(N)` and
      answers one empty frame. A missing argument, a value `int` rejects and
      a fault of the reset each escape with no frame and the session
      unchanged: an invalid size never reaches the board. */
  lemma BoardSizeAnswer(env: Env, args: seq<string>, s: Session)
    ensures |args| == 0 ==>
      Answer(env, ["boardsize"] + args, s) == StepResult([], s, Raised(IndexErrorMessage))
    ensures |args| >= 1 && env.parseInt(args[0]).Fault? ==>
      Answer(env, ["boardsize"] + args, s) == StepResult([], s, Raised(env.parseInt(args[0]).message))
    ensures |args| >= 1 && env.parseInt(args[0]).Ok? ==>
      var n := env.parseInt(args[0]).value;
      Answer(env, ["boardsize"] + args, s)
        == match env.reset(n)
           case Ok(b) => StepResult([Ack], s.(board := b), Returned)
           case Fault(m) => StepResult([], s, Raised(m))
  {
    AnswerDispatch(env, "boardsize", BoardSize, args, s);
  }

  /** `legal_moves C` answers the board's legal-move text, and reports every
      fault, including a missing argument, as an `Error:` success frame. */
  lemma LegalMovesAnswer(env: Env, args: seq<string>, s: Session)
    ensures var r := Answer(env, ["legal_moves"] + args, s);
      && r.session == s && r.outcome == Returned && |r.frames| == 1
      && (|args| == 0 ==> r.frames == [Success("Error: " + IndexErrorMessage)])
      && (|args| >= 1 && env.colorToInt(Lower(args[0])).Fault? ==>
            r.frames == [Success("Error: " + env.colorToInt(Lower(args[0])).message)])
      && (|args| >= 1 && env.colorToInt(Lower(args[0])).Ok? ==>
            var moves := env.legalMoves(s.board, env.colorToInt(Lower(args[0])).value);
            r.frames == [Success(if moves.Ok? then moves.value else "Error: " + moves.message)])
  {
    AnswerDispatch(env, "legal_moves", LegalMoves, args, s);
  }
}

=== FILE: engine.dfy ===
/** `GtpConnection.get_cmd` (gtp_connection.py:101-157): one raw input line,
    applied to the session, yields the frames written, the next session and
    whether a fault escaped.
 */
module Engine {
  import opened Wrappers
  import opened Text
  import opened Framing
  import opened Commands
  import opened Collaborators
  import opened Handlers

  /** How `get_cmd` ended: by returning, by re-raising a handler's fault,
      or by the process exiting (`quit`). */
  datatype Outcome = Returned | Raised(message: string) | Exited

  datatype StepResult = StepResult(frames: seq<Frame>, session: Session, outcome: Outcome)

  /** `len(line.strip(' \r\t')) == 0`. A newline is not among the stripped
      characters. */
  predicate IsStripBlank(line: string) {
    forall i :: 0 <= i < |line| ==> line[i] == ' ' || line[i] == '\r' || line[i] == '\t'
  }

  /** The tokens `get_cmd` dispatches on, or `None` when the line is
      answered by nothing at all (gtp_connection.py:110-120). */
  function Preprocess(line: string): (r: Option<seq<string>>)
    ensures r.Some? ==> |r.value| >= 1
    ensures r.Some? ==> forall i :: 0 <= i < |r.value| ==> IsToken(r.value[i])
    ensures r.Some? ==> line != [] && line[0] != '#' && !IsStripBlank(line)
  {
    if IsStripBlank(line) then None
    else if line[0] == '#' then None
    else
      var tokens := Split(DropId(line));
      if tokens == [] then None else Some(tokens)
  }

  /** The line with its leading numeric id and the whitespace after it
      removed (gtp_connection.py:115-116). */
  function DropId(line: string): string
    requires line != []
  {
    if IsDigit(line[0]) then LStrip(DropDigits(line)) else line
  }

  /** How a handler's stop is seen by `get_cmd`'s caller: a fault is re-raised
      (gtp_connection.py:127-132). */
  function Finish(run: Run): StepResult {
    var outcome := match run.stop
      case Normal => Returned
      case Raise(m) => Raised(m)
      case Exit => Exited;
    StepResult(run.frames, run.session, outcome)
  }

  /** `get_cmd` from the point where the line has been split into a
      command name and its arguments (gtp_connection.py:121-136). */
  function Answer(env: Env, tokens: seq<string>, s: Session): StepResult
    requires |tokens| >= 1
  {
    var name := tokens[0];
    var args := tokens[1..];
    match ArityError(name, |args|)
    case Some(usage) => StepResult([Failure(usage)], s, Returned)
    case None =>
      match Lookup(name)
      case None => StepResult([Failure("Unknown command")], s, Returned)
      case Some(cmd) =>
        Finish(Dispatch(env, cmd, args, s))
  }

  /** `get_cmd(line)`. */
  function Step(env: Env, line: string, s: Session): StepResult {
    match Preprocess(line)
    case None => StepResult([], s, Returned)
    case Some(tokens) => Answer(env, tokens, s)
  }
}

=== FILE: framing.dfy ===
/** Response frames: `respond(text)` writes `"= " + text + "\n\n"` and
    `error(text)` writes `"? " + text + "\n\n"` (gtp_connection.py, `respond`
    and `error`).
 */
module Framing {
  import opened Wrappers

  datatype Frame = Success(text: string) | Failure(text: string)

  /** The bytes written for a frame. */
  function Render(f: Frame): (out: string)
    ensures |out| == |f.text| + 4
    ensures out[|out| - 2..] == "\n\n"
    ensures out[1] == ' ' && out[2..|out| - 2] == f.text
    ensures out[0] == (if f.Success? then '=' else '?')
  {
    match f
    case Success(t) => "= " + t + "\n\n"
    case Failure(t) => "? " + t + "\n\n"
  }

  /** Reads one rendered frame back; `None` for text that is not one. */
  function ReadFrame(out: string): Option<Frame> {
    if |out| < 4 || out[1] != ' ' || out[|out| - 2..] != "\n\n" then None
    else if out[0] == '=' then Some(Success(out[2..|out| - 2]))
    else if out[0] == '?' then Some(Failure(out[2..|out| - 2]))
    else None
  }

  /** The rendering is unambiguous: every frame can be read back from its bytes. */
  lemma ReadRender(f: Frame)
    ensures ReadFrame(Render(f)) == Some(f)
  {
  }
}

=== FILE: genmove_properties.dfy ===
/** `genmove_cmd` (gtp_connection.py:431-473): the engine's move is checked,
    played and reported; an illegal engine move and every other fault are
    answered as `Error:` frames.
 */
module GenMoveProperties {
  import opened Wrappers
  import opened Text
  import opened Framing
  import opened Collaborators
  import opened Handlers

  /** A missing colour is reported rather than raised. */
  lemma GenMoveWithoutArguments(env: Env, s: Session)
    ensures GenMoveCmd(env, [], s) == Run([Success("Error: " + IndexErrorMessage)], s, Normal)
  {
  }

  /** A colour the codec rejects is reported with the codec's message. */
  lemma GenMoveBadColor(env: Env, args: seq<string>, s: Session)
    requires |args| >= 1 && env.colorToInt(Lower(args[0])).Fault?
    ensures GenMoveCmd(env, args, s)
      == Run([Success("Error: " + env.colorToInt(Lower(args[0])).message)], s, Normal)
  {
  }

  /** A fault of the board's legality check is reported, after the pass
      frames if the engine passed; the board is not touched. */
  lemma GenMoveCheckFault(env: Env, args: seq<string>, s: Session)
    requires |args| >= 1 && env.colorToInt(Lower(args[0])).Ok?
    requires var c := env.colorToInt(Lower(args[0])).value;
      env.checkLegal(s.board, env.getMove(s.board, c), c).Fault?
    ensures var c := env.colorToInt(Lower(args[0])).value;
      var mv := env.getMove(s.board, c);
      GenMoveCmd(env, args, s)
        == Run(PassFrames(mv) + [Success("Error: " + env.checkLegal(s.board, mv, c).message)], s, Normal)
  {
  }

  /** An engine move the board calls illegal is named, then reported as the
      engine's fault; the board is not touched. A pass the board calls
      illegal is handled the same way, after the pass frames. */
  lemma GenMoveIllegalEngineMove(env: Env, args: seq<string>, s: Session)
    requires |args| >= 1 && env.colorToInt(Lower(args[0])).Ok?
    requires var c := env.colorToInt(Lower(args[0])).value;
      var mv := env.getMove(s.board, c);
      env.checkLegal(s.board, mv, c) == Ok(false)
    ensures var c := env.colorToInt(Lower(args[0])).value;
      var mv := env.getMove(s.board, c);
      var name := env.formatPoint(s.board, mv);
      GenMoveCmd(env, args, s)
        == if name.Ok? then
             Run(PassFrames(mv) + [Success("Illegal move: " + name.value), Success("Error: " + EngineFaultMessage)], s, Normal)
           else
             Run(PassFrames(mv) + [Success("Error: " + name.message)], s, Normal)
  {
  }

  /** A legal engine move is played: the answer is its name, followed by an
      empty frame when the opponent has no move left, and the board becomes
      the board's answer to the move. A fault while naming it is reported
      instead, on the new board. */
  lemma GenMoveLegal(env: Env, args: seq<string>, s: Session)
    requires |args| >= 1 && env.colorToInt(Lower(args[0])).Ok?
    requires var c := env.colorToInt(Lower(args[0])).value;
      var mv := env.getMove(s.board, c);
      env.checkLegal(s.board, mv, c) == Ok(true)
      && env.move(s.board, mv, c).Some?
    ensures var c := env.colorToInt(Lower(args[0])).value;
      var mv := env.getMove(s.board, c);
      var b := env.move(s.board, mv, c).value;
      var name := env.formatPoint(b, mv);
      GenMoveCmd(env, args, s)
        == if name.Ok? then
             Run(PassFrames(mv) + [Success(name.value)] + EndOfGame(env, b, c), s.(board := b), Normal)
           else
             Run(PassFrames(mv) + [Success("Error: " + name.message)], s.(board := b), Normal)
  {
  }

  /** The result of `board.move` is ignored: an engine move the board found
      legal but then refuses is still announced as played, on the unchanged
      board. */
  lemma GenMoveLegalButRefused(env: Env, args: seq<string>, s: Session)
    requires |args| >= 1 && env.colorToInt(Lower(args[0])).Ok?
    requires var c := env.colorToInt(Lower(args[0])).value;
      var mv := env.getMove(s.board, c);
      env.checkLegal(s.board, mv, c) == Ok(true)
      && env.move(s.board, mv, c).None?
    ensures var c := env.colorToInt(Lower(args[0])).value;
      var mv := env.getMove(s.board, c);
      var name := env.formatPoint(s.board, mv);
      GenMoveCmd(env, args, s)
        == if name.Ok? then
             Run(PassFrames(mv) + [Success(name.value)] + EndOfGame(env, s.board, c), s, Normal)
           else
             Run(PassFrames(mv) + [Success("Error: " + name.message)], s, Normal)
  {
  }

  /** When the engine has no move, `genmove` says so and acknowledges before
      asking the board about the pass, whatever happens next. */
  lemma GenMovePassAnnounced(env: Env, args: seq<string>, s: Session)
    requires |args| >= 1 && env.colorToInt(Lower(args[0])).Ok?
    requires env.getMove(s.board, env.colorToInt(Lower(args[0])).value).None?
    ensures var r := GenMoveCmd(env, args, s);
      |r.frames| >= 3 && r.frames[..2] == [Success(PassMessage), Ack]
  {
  }

  /** `genmove` never lets a fault escape and never touches the komi; the
      board changes only through the board's own answer to the engine's
      move after the board found it legal. */
  lemma GenMoveBoardChangesOnlyByEngineMove(env: Env, args: seq<string>, s: Session)
    ensures var r := GenMoveCmd(env, args, s);
      && r.stop == Normal && r.frames != [] && r.session.komi == s.komi
      && (r.session != s ==>
            |args| >= 1 && env.colorToInt(Lower(args[0])).Ok?
            && var c := env.colorToInt(Lower(args[0])).value;
               var mv := env.getMove(s.board, c);
               env.checkLegal(s.board, mv, c) == Ok(true)
               && env.move(s.board, mv, c) == Some(r.session.board))
  {
  }
}

=== FILE: handlers.dfy ===
/** The command handlers of `GtpConnection` (gtp_connection.py:187-473).

    A handler maps its argument list and the session to the frames it
    writes, the session it leaves behind and how it stops: normally, by
    raising a fault (a Python exception leaving the handler), or by exiting
    the process (`quit`). `play`, `genmove` and `legal_moves` wrap their body
    in `try ... except Exception`, so no fault leaves them.
 */
module Handlers {
  import opened Wrappers
  import opened Text
  import opened Framing
  import opened Collaborators
  import Commands

  /** The mutable part of a `GtpConnection`: its board and its komi. */
  datatype Session = Session(board: Board, komi: Komi)

  datatype Stop = Normal | Raise(message: string) | Exit

  /** What running a handler produced. */
  datatype Run = Run(frames: seq<Frame>, session: Session, stop: Stop)

  /** `str(e)` of the `IndexError` raised by `args[0]` on an empty list. */
  const IndexErrorMessage := "list index out of range"

  /** The `RuntimeError` `genmove` raises when the agent's move is illegal. */
  const EngineFaultMessage := "Illegal move given by engine"

  const PassMessage := "Computer tried to pass. No passing allowed."

  predicate IsColorToken(t: string) {
    Lower(t) == "b" || Lower(t) == "w"
  }

  /** `respond()`: the empty success frame. */
  const Ack := Success("")

  /** `except Exception as e: self.respond(prefix + str(e))`. */
  function Catch(r: Run, prefix: string): (c: Run)
    ensures !c.stop.Raise?
    ensures c.session == r.session
    ensures r.stop.Raise? ==> c.frames == r.frames + [Success(prefix + r.stop.message)] && c.stop == Normal
    ensures !r.stop.Raise? ==> c == r
  {
    match r.stop
    case Raise(m) => Run(r.frames + [Success(prefix + m)], r.session, Normal)
    case _ => r
  }

  /** The end-of-game check after a successful move: when the opponent of
      `c` has no move left, `final_score_cmd` writes one empty success frame. */
  function EndOfGame(env: Env, b: Board, c: Color): seq<Frame> {
    if env.opponentHasMove(b, Opponent(c)) then [] else [Ack]
  }

  function ProtocolVersionCmd(s: Session): Run {
    Run([Success("2")], s, Normal)
  }

  function QuitCmd(s: Session): Run {
    Run([Ack], s, Exit)
  }

  function NameCmd(env: Env, s: Session): Run {
    Run([Success(env.agentName)], s, Normal)
  }

  function VersionCmd(env: Env, s: Session): Run {
    Run([Success(env.agentVersion)], s, Normal)
  }

  function ClearBoardCmd(env: Env, s: Session): Run {
    match env.reset(env.size(s.board))
    case Fault(m) => Run([], s, Raise(m))
    case Ok(b) => Run([Ack], s.(board := b), Normal)
  }

  function BoardSizeCmd(env: Env, args: seq<string>, s: Session): Run {
    if |args| == 0 then Run([], s, Raise(IndexErrorMessage))
    else
      match env.parseInt(args[0])
      case Fault(m) => Run([], s, Raise(m))
      case Ok(n) =>
        match env.reset(n)
        case Fault(m) => Run([], s, Raise(m))
        case Ok(b) => Run([Ack], s.(board := b), Normal)
  }

  function ShowBoardCmd(env: Env, s: Session): Run {
    Run([Success("\n" + env.render(s.board))], s, Normal)
  }

  function KomiCmd(env: Env, args: seq<string>, s: Session): Run {
    if |args| == 0 then Run([], s, Raise(IndexErrorMessage))
    else
      match env.parseKomi(args[0])
      case Fault(m) => Run([], s, Raise(m))
      case Ok(k) => Run([Ack], s.(komi := k), Normal)
  }

  function KnownCommandCmd(args: seq<string>, s: Session): Run {
    if |args| == 0 then Run([], s, Raise(IndexErrorMessage))
    else if args[0] in Commands.Names() then Run([Success("true")], s, Normal)
    else Run([Success("false")], s, Normal)
  }

  function ListCommandsCmd(s: Session): Run {
    Run([Success(JoinSpace(Commands.Names()))], s, Normal)
  }

  function FinalScoreCmd(s: Session): Run {
    Run([Ack], s, Normal)
  }

  /** The board left by `set_free_handicap`'s loop, and the fault that cut
      it short, if any. */
  datatype Placed = Placed(board: Board, fault: Option<string>)

  /** One turn of `set_free_handicap`'s loop (gtp_connection.py:264-270):
      decode the point name, convert it and attempt a black stone there. A
      refused stone leaves the board as it was; a codec fault stops the loop. */
  function PlaceOne(env: Env, b: Board, point: string): (r: Placed)
    ensures r.fault.Some? ==> r.board == b
    ensures r.board != b ==> exists p :: env.move(b, Some(p), Black) == Some(r.board)
  {
    match env.moveToCoord(point, env.size(b))
    case Fault(m) => Placed(b, Some(m))
    case Ok(d) =>
      match env.coordToPoint(b, d)
      case Fault(m) => Placed(b, Some(m))
      case Ok(p) =>
        match env.move(b, Some(p), Black)
        case Some(b') => Placed(b', None)
        case None => Placed(b, None)
  }

  /** The whole loop of `set_free_handicap` over the point names, in order. */
  function PlaceStones(env: Env, b: Board, points: seq<string>): (r: Placed)
    ensures SizeCoherent(env) ==> env.size(r.board) == env.size(b)
    ensures points == [] ==> r == Placed(b, None)
  {
    if points == [] then Placed(b, None)
    else
      var one := PlaceOne(env, b, points[0]);
      if one.fault.Some? then one else PlaceStones(env, one.board, points[1..])
  }

  function SetFreeHandicapCmd(env: Env, args: seq<string>, s: Session): Run {
    match env.reset(env.size(s.board))
    case Fault(m) => Run([], s, Raise(m))
    case Ok(b0) =>
      var placed := PlaceStones(env, b0, args);
      match placed.fault
      case Some(m) => Run([], s.(board := placed.board), Raise(m))
      case None => Run([Ack], s.(board := placed.board), Normal)
  }

  function LegalMovesTry(env: Env, args: seq<string>, s: Session): Run {
    if |args| == 0 then Run([], s, Raise(IndexErrorMessage))
    else
      match env.colorToInt(Lower(args[0]))
      case Fault(m) => Run([], s, Raise(m))
      case Ok(c) =>
        match env.legalMoves(s.board, c)
        case Fault(m) => Run([], s, Raise(m))
        case Ok(text) => Run([Success(text)], s, Normal)
  }

  function LegalMovesCmd(env: Env, args: seq<string>, s: Session): (r: Run)
    ensures r.stop == Normal && r.frames != [] && r.session == s
  {
    Catch(LegalMovesTry(env, args, s), "Error: ")
  }

  /** The names of the given points, formatted one by one; the first fault
      stops the formatting and is the one reported (gtp_connection.py:354-360). */
  function FormatAll(env: Env, b: Board, ps: seq<Point>): (r: Result<seq<string>>)
    ensures r.Ok? <==> forall i :: 0 <= i < |ps| ==> env.formatPoint(b, Some(ps[i])).Ok?
    ensures r.Ok? ==> |r.value| == |ps|
    ensures r.Ok? ==> forall i :: 0 <= i < |ps| ==> env.formatPoint(b, Some(ps[i])) == Ok(r.value[i])
    ensures r.Fault? ==> exists i ::
      && 0 <= i < |ps|
      && env.formatPoint(b, Some(ps[i])) == Fault(r.message)
      && forall j :: 0 <= j < i ==> env.formatPoint(b, Some(ps[j])).Ok?
  {
    if ps == [] then Ok([])
    else
      match env.formatPoint(b, Some(ps[0]))
      case Fault(m) => Fault(m)
      case Ok(name) =>
        match FormatAll(env, b, ps[1..])
        case Fault(m) => Fault(m)
        case Ok(names) => Ok([name] + names)
  }

  function WrongCoordinate(args: seq<string>): Frame
    requires |args| >= 2
  {
    Success("illegal move: " + args[0] + " " + args[1] + " wrong coordinate")
  }

  /** The body of `play_cmd`'s `try` block (gtp_connection.py:335-412). */
  function PlayTry(env: Env, args: seq<string>, s: Session): Run {
    if |args| == 0 then
      Run([Success("illegal move: wrong number of arguments")], s, Raise(IndexErrorMessage))
    else if |args| == 1 then
      Run([Success("illegal move: " + args[0] + " wrong number of arguments")], s, Normal)
    else if !IsColorToken(args[0]) then
      Run([Success("illegal move: " + args[0] + " " + args[1] + " wrong color")], s, Normal)
    else
      match FormatAll(env, s.board, env.allPositions(s.board))
      case Fault(m) => Run([], s, Raise(m))
      case Ok(names) =>
        if Lower(args[1]) !in names then Run([WrongCoordinate(args)], s, Normal)
        else
          match env.moveToCoord(args[1], env.size(s.board))
          case Fault(m) => Run([], s, Raise(m))
          case Ok(d) =>
            if env.boundsFlag(d) then Run([WrongCoordinate(args)], s, Normal)
            else
              match env.colorToInt(Lower(args[0]))
              case Fault(m) => Run([], s, Raise(m))
              case Ok(c) =>
                match env.coordToPoint(s.board, d)
                case Fault(m) => Run([], s, Raise(m))
                case Ok(p) =>
                  match env.move(s.board, Some(p), c)
                  case None => Run([Success("Illegal Move: " + args[1])], s, Normal)
                  case Some(b) => Run(EndOfGame(env, b, c) + [Ack], s.(board := b), Normal)
  }

  function PlayCmd(env: Env, args: seq<string>, s: Session): (r: Run)
    ensures r.stop == Normal && r.frames != [] && r.session.komi == s.komi
  {
    Catch(PlayTry(env, args, s), "")
  }

  /** What `genmove` writes before the legality check: the pass message and
      `final_score_cmd`'s empty frame when the engine has no move. */
  function PassFrames(mv: Option<Point>): seq<Frame> {
    if mv.None? then [Success(PassMessage), Ack] else []
  }

  /** The body of `genmove_cmd`'s `try` block (gtp_connection.py:444-471). */
  function GenMoveTry(env: Env, args: seq<string>, s: Session): Run {
    if |args| == 0 then Run([], s, Raise(IndexErrorMessage))
    else
      match env.colorToInt(Lower(args[0]))
      case Fault(m) => Run([], s, Raise(m))
      case Ok(c) =>
        var mv := env.getMove(s.board, c);
        var passed := PassFrames(mv);
        match env.checkLegal(s.board, mv, c)
        case Fault(m) => Run(passed, s, Raise(m))
        case Ok(legal) =>
          if !legal then
            match env.formatPoint(s.board, mv)
            case Fault(m) => Run(passed, s, Raise(m))
            case Ok(name) => Run(passed + [Success("Illegal move: " + name)], s, Raise(EngineFaultMessage))
          else
            var b := match env.move(s.board, mv, c)
              case Some(b') => b'
              case None => s.board;
            match env.formatPoint(b, mv)
            case Fault(m) => Run(passed, s.(board := b), Raise(m))
            case Ok(name) => Run(passed + [Success(name)] + EndOfGame(env, b, c), s.(board := b), Normal)
  }

  function GenMoveCmd(env: Env, args: seq<string>, s: Session): (r: Run)
    ensures r.stop == Normal && r.frames != [] && r.session.komi == s.komi
  {
    Catch(GenMoveTry(env, args, s), "Error: ")
  }

  /** `self.commands[name](args)`. */
  function Dispatch(env: Env, cmd: Commands.Command, args: seq<string>, s: Session): (r: Run)
    ensures r.stop.Raise? ==> r.frames == [] && cmd !in {Commands.Play, Commands.GenMove, Commands.LegalMoves}
    ensures r.stop.Exit? ==> cmd == Commands.Quit && r == Run([Ack], s, Exit)
    ensures r.stop.Normal? ==> r.frames != []
    ensures r.session.komi != s.komi ==> cmd == Commands.SetKomi
  {
    match cmd
    case ProtocolVersion => ProtocolVersionCmd(s)
    case Quit => QuitCmd(s)
    case EngineName => NameCmd(env, s)
    case BoardSize => BoardSizeCmd(env, args, s)
    case ShowBoard => ShowBoardCmd(env, s)
    case ClearBoard => ClearBoardCmd(env, s)
    case SetKomi => KomiCmd(env, args, s)
    case Version => VersionCmd(env, s)
    case KnownCommand => KnownCommandCmd(args, s)
    case SetFreeHandicap => SetFreeHandicapCmd(env, args, s)
    case GenMove => GenMoveCmd(env, args, s)
    case ListCommands => ListCommandsCmd(s)
    case Play => PlayCmd(env, args, s)
    case FinalScore => FinalScoreCmd(s)
    case LegalMoves => LegalMovesCmd(env, args, s)
  }
}

=== FILE: play_properties.dfy ===
/** `play_cmd` (gtp_connection.py:318-419): the order in which it rejects a
    request, what an accepted move does to the session, and that no fault
    leaves it.
 */
module PlayProperties {
  import opened Wrappers
  import opened Text
  import opened Framing
  import opened Collaborators
  import opened Handlers

  /** Without arguments `play` writes its complaint and then, because it
      still reads `args[0]`, the caught `IndexError` as a second frame. */
  lemma PlayWithoutArguments(env: Env, s: Session)
    ensures PlayCmd(env, [], s)
      == Run([Success("illegal move: wrong number of arguments"), Success(IndexErrorMessage)], s, Normal)
  {
    assert "" + IndexErrorMessage == IndexErrorMessage;
  }

  lemma PlayOneArgument(env: Env, a: string, s: Session)
    ensures PlayCmd(env, [a], s)
      == Run([Success("illegal move: " + a + " wrong number of arguments")], s, Normal)
  {
  }

  /** The colour is checked before the point: any first argument other than
      `b` or `w` (in either case) is refused, whatever the point. */
  lemma PlayWrongColor(env: Env, args: seq<string>, s: Session)
    requires |args| >= 2 && !IsColorToken(args[0])
    ensures PlayCmd(env, args, s)
      == Run([Success("illegal move: " + args[0] + " " + args[1] + " wrong color")], s, Normal)
  {
  }

  /** The colour check accepts exactly `b`, `B`, `w` and `W`. */
  lemma ColorTokens(t: string)
    ensures IsColorToken(t) <==> t in ["b", "B", "w", "W"]
  {
    if IsColorToken(t) {
      assert |t| == 1;
      assert Lower(t)[0] == LowerChar(t[0]);
      assert t == [t[0]];
    }
  }

  /** A point name the codec cannot decode is answered with the codec's
      message, the session unchanged. */
  lemma PlayDecodeFault(env: Env, args: seq<string>, s: Session)
    requires |args| >= 2 && IsColorToken(args[0])
    requires var names := FormatAll(env, s.board, env.allPositions(s.board));
      names.Ok? && Lower(args[1]) in names.value
    requires env.moveToCoord(args[1], env.size(s.board)).Fault?
    ensures PlayCmd(env, args, s)
      == Run([Success(env.moveToCoord(args[1], env.size(s.board)).message)], s, Normal)
  {
    var m := env.moveToCoord(args[1], env.size(s.board)).message;
    assert "" + m == m;
  }

  /** A colour the codec rejects, found only after the point has been
      checked, is answered with the codec's message. */
  lemma PlayColorFault(env: Env, args: seq<string>, s: Session)
    requires |args| >= 2 && IsColorToken(args[0])
    requires var names := FormatAll(env, s.board, env.allPositions(s.board));
      names.Ok? && Lower(args[1]) in names.value
    requires var d := env.moveToCoord(args[1], env.size(s.board));
      d.Ok? && !env.boundsFlag(d.value)
    requires env.colorToInt(Lower(args[0])).Fault?
    ensures PlayCmd(env, args, s)
      == Run([Success(env.colorToInt(Lower(args[0])).message)], s, Normal)
  {
    var m := env.colorToInt(Lower(args[0])).message;
    assert "" + m == m;
  }

  /** A decoded point the board cannot convert is answered with the board's
      message. */
  lemma PlayPointFault(env: Env, args: seq<string>, s: Session)
    requires |args| >= 2 && IsColorToken(args[0])
    requires var names := FormatAll(env, s.board, env.allPositions(s.board));
      names.Ok? && Lower(args[1]) in names.value
    requires var d := env.moveToCoord(args[1], env.size(s.board));
      d.Ok? && !env.boundsFlag(d.value) && env.coordToPoint(s.board, d.value).Fault?
    requires env.colorToInt(Lower(args[0])).Ok?
    ensures var d := env.moveToCoord(args[1], env.size(s.board));
      PlayCmd(env, args, s)
        == Run([Success(env.coordToPoint(s.board, d.value).message)], s, Normal)
  {
    var m := env.coordToPoint(s.board, env.moveToCoord(args[1], env.size(s.board)).value).message;
    assert "" + m == m;
  }

  /** A point whose lower-cased spelling is not among the names of the
      board's positions is refused. */
  lemma PlayUnknownCoordinate(env: Env, args: seq<string>, s: Session)
    requires |args| >= 2 && IsColorToken(args[0])
    requires var names := FormatAll(env, s.board, env.allPositions(s.board));
      names.Ok? && Lower(args[1]) !in names.value
    ensures PlayCmd(env, args, s) == Run([WrongCoordinate(args)], s, Normal)
  {
  }

  /** A point the codec flags as out of bounds is refused the same way. */
  lemma PlayOutOfBounds(env: Env, args: seq<string>, s: Session)
    requires |args| >= 2 && IsColorToken(args[0])
    requires var names := FormatAll(env, s.board, env.allPositions(s.board));
      names.Ok? && Lower(args[1]) in names.value
    requires var d := env.moveToCoord(args[1], env.size(s.board));
      d.Ok? && env.boundsFlag(d.value)
    ensures PlayCmd(env, args, s) == Run([WrongCoordinate(args)], s, Normal)
  {
  }

  /** The request that passed every check, as the board sees it: the colour
      and the point to place, or nothing when a check refuses it or a
      collaborator faults on the way. */
  function Request(env: Env, args: seq<string>, s: Session): Option<(Color, Point)> {
    if |args| < 2 || !IsColorToken(args[0]) then None
    else
      var names := FormatAll(env, s.board, env.allPositions(s.board));
      var d := env.moveToCoord(args[1], env.size(s.board));
      if names.Fault? || Lower(args[1]) !in names.value || d.Fault? || env.boundsFlag(d.value) then None
      else
        var c := env.colorToInt(Lower(args[0]));
        var p := env.coordToPoint(s.board, d.value);
        if c.Fault? || p.Fault? then None else Some((c.value, p.value))
  }

  /** A well-formed request the board refuses is answered `Illegal Move: M`
      and leaves the session alone. */
  lemma PlayRefused(env: Env, args: seq<string>, s: Session)
    requires Request(env, args, s).Some?
    requires var (c, p) := Request(env, args, s).value; env.move(s.board, Some(p), c).None?
    ensures PlayCmd(env, args, s) == Run([Success("Illegal Move: " + args[1])], s, Normal)
  {
  }

  /** A well-formed request the board accepts replaces the board by the
      board's answer and is acknowledged, after an extra empty frame when
      the opponent has no move left. */
  lemma PlayAccepted(env: Env, args: seq<string>, s: Session)
    requires Request(env, args, s).Some?
    requires var (c, p) := Request(env, args, s).value; env.move(s.board, Some(p), c).Some?
    ensures var (c, p) := Request(env, args, s).value;
      var b := env.move(s.board, Some(p), c).value;
      PlayCmd(env, args, s) == Run(EndOfGame(env, b, c) + [Ack], s.(board := b), Normal)
  {
  }

  /** `play` never lets a fault escape and never touches the komi; the only
      way it changes the board is an accepted request, and then the new board
      is the one the board itself returned for that request. */
  lemma PlayBoardChangesOnlyByAcceptedMove(env: Env, args: seq<string>, s: Session)
    ensures var r := PlayCmd(env, args, s);
      && r.stop == Normal && r.frames != [] && r.session.komi == s.komi
      && (r.session != s ==>
            Request(env, args, s).Some?
            && var (c, p) := Request(env, args, s).value;
               env.move(s.board, Some(p), c) == Some(r.session.board))
  {
  }

  /** A collaborator fault inside `play` is answered as a success frame
      holding the fault's message, with the session unchanged. */
  lemma PlayReportsFaults(env: Env, args: seq<string>, s: Session)
    requires |args| >= 2 && IsColorToken(args[0])
    requires FormatAll(env, s.board, env.allPositions(s.board)).Fault?
    ensures PlayCmd(env, args, s)
      == Run([Success(FormatAll(env, s.board, env.allPositions(s.board)).message)], s, Normal)
  {
    var m := FormatAll(env, s.board, env.allPositions(s.board)).message;
    assert "" + m == m;
  }

  /** The position names are compared with the lower-cased point but are not
      lower-cased themselves: when every name holds a capital letter no
      request gets past the coordinate check, so `play` never moves. */
  lemma PlayNeedsLowerCaseNames(env: Env, args: seq<string>, s: Session)
    requires var names := FormatAll(env, s.board, env.allPositions(s.board));
      names.Ok? && forall i :: 0 <= i < |names.value| ==>
        exists j :: 0 <= j < |names.value[i]| && IsUpper(names.value[i][j])
    ensures Request(env, args, s).None?
    ensures PlayCmd(env, args, s).session == s
  {
    var names := FormatAll(env, s.board, env.allPositions(s.board)).value;
    if |args| >= 2 && Lower(args[1]) in names {
      var i :| 0 <= i < |names| && names[i] == Lower(args[1]);
      LowerHasNoUpper(args[1], names[i]);
    }
    PlayBoardChangesOnlyByAcceptedMove(env, args, s);
  }
}

=== FILE: preprocess_properties.dfy ===
/** What `get_cmd` does to a raw line before dispatching it
    (gtp_connection.py:110-121).
 */
module PreprocessProperties {
  import opened Wrappers
  import opened Text
  import opened Framing
  import opened Commands
  import opened Collaborators
  import opened Handlers
  import opened Engine

  /** Once the tokens are known, the line itself plays no further part. */
  lemma StepOfTokens(env: Env, line: string, ts: seq<string>, s: Session)
    requires Preprocess(line) == Some(ts)
    ensures |ts| >= 1 && Step(env, line, s) == Answer(env, ts, s)
  {
  }

  /** A line made only of spaces, tabs and carriage returns is answered by nothing. */
  lemma BlankLineIsSilent(env: Env, line: string, s: Session)
    requires IsStripBlank(line)
    ensures Step(env, line, s) == StepResult([], s, Returned)
  {
  }

  /** Every line of whitespace only, including the `"\n"` and `"\r\n"` that
      reading a blank line yields, is answered by nothing: either it is blank
      in the narrow sense above, or it splits into no tokens. */
  lemma WhitespaceLineIsSilent(env: Env, line: string, s: Session)
    requires AllSpace(line)
    ensures Step(env, line, s) == StepResult([], s, Returned)
  {
    if !IsStripBlank(line) {
      assert line != [] && IsSpace(line[0]);
      assert DropId(line) == line;
      SplitEmptyIffAllSpace(line);
    }
  }

  /** A line whose very first character is `#` is answered by nothing. */
  lemma CommentLineIsSilent(env: Env, line: string, s: Session)
    requires line != [] && line[0] == '#'
    ensures Step(env, line, s) == StepResult([], s, Returned)
  {
  }

  /** A line holding only a numeric id (and whitespace) is answered by nothing. */
  lemma IdOnlyLineIsSilent(env: Env, line: string, s: Session)
    requires line != [] && IsDigit(line[0])
    requires AllSpace(DropDigits(line))
    ensures Step(env, line, s) == StepResult([], s, Returned)
  {
    var rest := DropDigits(line);
    SplitEmptyIffAllSpace(DropId(line));
    assert AllSpace(DropId(line)) by {
      assert DropId(line) == LStrip(rest);
    }
  }

  lemma {:induction false} DigitRunOfId(id: string, rest: string)
    requires forall i :: 0 <= i < |id| ==> IsDigit(id[i])
    requires rest == [] || !IsDigit(rest[0])
    ensures DigitRun(id + rest) == |id|
  {
    if id != [] {
      assert (id + rest)[1..] == id[1..] + rest;
      DigitRunOfId(id[1..], rest);
    }
  }

  /** The id is exactly the leading digit run of the line. */
  lemma DropDigitsOfId(id: string, rest: string)
    requires forall i :: 0 <= i < |id| ==> IsDigit(id[i])
    requires rest == [] || !IsDigit(rest[0])
    ensures DropDigits(id + rest) == rest
  {
    DigitRunOfId(id, rest);
    assert (id + rest)[|id|..] == rest;
  }

  lemma PreprocessFromParts(line: string, ts: seq<string>)
    requires line != [] && line[0] != '#' && !IsStripBlank(line)
    requires ts != [] && Split(DropId(line)) == ts
    ensures Preprocess(line) == Some(ts)
  {
  }

  /** The id goes, and so does the whitespace after it. */
  lemma DropIdOfId(id: string, rest: string)
    requires id != [] && forall i :: 0 <= i < |id| ==> IsDigit(id[i])
    requires rest == [] || !IsDigit(rest[0])
    ensures var line := id + rest;
      line[0] == id[0] && line[0] != '#' && !IsStripBlank(line) && DropId(line) == LStrip(rest)
  {
    DropDigitsOfId(id, rest);
    assert (id + rest)[0] == id[0];
  }

  /** An id and the whitespace after it leave exactly the body that follows. */
  lemma DropIdOfIdLine(id: string, lead: string, body: string)
    requires id != [] && forall i :: 0 <= i < |id| ==> IsDigit(id[i])
    requires lead != [] && AllSpace(lead)
    requires body == [] || !IsSpace(body[0])
    ensures DropId(id + (lead + body)) == body
  {
    DropIdOfId(id, lead + body);
    LStripSpacePrefix(lead, body);
  }

  /** A laid-out line starts with its first separator, then its first token. */
  lemma LayoutStart(seps: seq<string>, ts: seq<string>, tail: string)
    requires |seps| == |ts| >= 1 && Separators(seps) && AllTokens(ts)
    ensures var line := Interleave(seps, ts) + tail;
      && |line| > |seps[0]|
      && line[|seps[0]|] == ts[0][0]
      && (seps[0] != [] ==> IsSpace(line[0]))
      && (seps[0] == [] ==> line[0] == ts[0][0])
  {
    var more := Interleave(seps[1..], ts[1..]) + tail;
    assert Interleave(seps, ts) + tail == seps[0] + (ts[0] + more);
  }

  /** Tokens laid out with any whitespace between, before and after them are
      dispatched as exactly those tokens, provided the line does not start
      with a digit or `#`. */
  lemma LineTokens(seps: seq<string>, ts: seq<string>, tail: string)
    requires |seps| == |ts| >= 1 && Separators(seps) && AllTokens(ts) && AllSpace(tail)
    requires seps[0] != [] || (!IsDigit(ts[0][0]) && ts[0][0] != '#')
    ensures Preprocess(Interleave(seps, ts) + tail) == Some(ts)
  {
    var line := Interleave(seps, ts) + tail;
    LayoutStart(seps, ts, tail);
    assert !IsStripBlank(line) by {
      assert !IsSpace(line[|seps[0]|]);
    }
    assert DropId(line) == line;
    SplitOfLayout(line, seps, ts, tail);
    PreprocessFromParts(line, ts);
  }

  /** A leading numeric id is dropped: the tokens are those of the rest of
      the line, whatever they start with. */
  lemma IdLineTokens(id: string, seps: seq<string>, ts: seq<string>, tail: string)
    requires id != [] && forall i :: 0 <= i < |id| ==> IsDigit(id[i])
    requires |seps| == |ts| >= 1 && Separators(seps) && AllTokens(ts) && AllSpace(tail)
    requires seps[0] != [] || !IsDigit(ts[0][0])
    ensures Preprocess(id + (Interleave(seps, ts) + tail)) == Some(ts)
  {
    var rest := Interleave(seps, ts) + tail;
    var line := id + rest;
    LayoutStart(seps, ts, tail);
    DropIdOfId(id, rest);
    SplitOfLStrip(rest);
    SplitOfLayout(rest, seps, ts, tail);
    PreprocessFromParts(line, ts);
  }

  /** The numeric id plays no part in the answer: it is not echoed, and the
      line is handled as if it were absent. */
  lemma IdIsIgnored(env: Env, id: string, seps: seq<string>, ts: seq<string>, tail: string, s: Session)
    requires id != [] && forall i :: 0 <= i < |id| ==> IsDigit(id[i])
    requires |seps| == |ts| >= 1 && Separators(seps) && AllTokens(ts) && AllSpace(tail)
    requires seps[0] != [] || (!IsDigit(ts[0][0]) && ts[0][0] != '#')
    ensures Step(env, id + (Interleave(seps, ts) + tail), s) == Step(env, Interleave(seps, ts) + tail, s)
  {
    IdLineTokens(id, seps, ts, tail);
    LineTokens(seps, ts, tail);
    StepOfTokens(env, id + (Interleave(seps, ts) + tail), ts, s);
    StepOfTokens(env, Interleave(seps, ts) + tail, ts, s);
  }

  /** No registered command name starts with `#`. */
  lemma HashNameIsUnknown(name: string)
    requires name != [] && name[0] == '#'
    ensures Lookup(name) == None
  {
  }
}

=== FILE: text.dfy ===
/** The string primitives the session engine uses on an input line:
    Python's `str.isspace`, `str.isdigit` (restricted to ASCII), `str.lower`
    (restricted to ASCII), `str.lstrip()`, the anchored `re.sub("^\d+", "", _)`,
    `str.split()` with no separator, and `' '.join`.
 */
module Text {

  /** The characters Python's `str.split()` and `str.lstrip()` treat as
      whitespace (exactly the ones for which `str.isspace()` holds). */
  predicate IsSpace(c: char) {
    || c == ' '
    || ('\t' <= c <= '\r')                  // \t \n \v \f \r
    || ('\U{1c}' <= c <= '\U{1f}')          // file/group/record/unit separators
    || c == '\U{85}' || c == '\U{a0}' || c == '\U{1680}'
    || ('\U{2000}' <= c <= '\U{200a}')
    || c == '\U{2028}' || c == '\U{2029}' || c == '\U{202f}'
    || c == '\U{205f}' || c == '\U{3000}'
  }

  predicate IsDigit(c: char) {
    '0' <= c <= '9'
  }

  /** A token of `str.split()`: non-empty and free of whitespace. */
  predicate IsToken(w: string) {
    w != [] && forall i :: 0 <= i < |w| ==> !IsSpace(w[i])
  }

  predicate AllSpace(s: string) {
    forall i :: 0 <= i < |s| ==> IsSpace(s[i])
  }

  function LowerChar(c: char): char {
    if 'A' <= c <= 'Z' then (c as int - 'A' as int + 'a' as int) as char else c
  }

  /** `s.lower()` on the ASCII letters. */
  function Lower(s: string): string {
    seq(|s|, i requires 0 <= i < |s| => LowerChar(s[i]))
  }

  predicate IsUpper(c: char) {
    'A' <= c <= 'Z'
  }

  /** Lower-casing leaves no ASCII capital behind, so no string holding one
      is the lower-cased form of anything. */
  lemma LowerHasNoUpper(s: string, n: string)
    requires exists i :: 0 <= i < |n| && IsUpper(n[i])
    ensures Lower(s) != n
  {
    var i :| 0 <= i < |n| && IsUpper(n[i]);
    if |s| == |n| {
      assert !IsUpper(Lower(s)[i]);
    }
  }

  /** Lower-casing maps each ASCII capital to its small letter, 32 code
      points further on, and keeps every other character. */
  lemma LowerPointwise(s: string)
    ensures |Lower(s)| == |s|
    ensures forall i :: 0 <= i < |s| && IsUpper(s[i]) ==> Lower(s)[i] as int == s[i] as int + 32
    ensures forall i :: 0 <= i < |s| && !IsUpper(s[i]) ==> Lower(s)[i] == s[i]
  {
  }

  /** Lower-casing changes a string exactly when it holds an ASCII capital,
      and lower-casing twice is lower-casing once. */
  lemma LowerFixesIffNoUpper(s: string)
    ensures Lower(s) == s <==> forall i :: 0 <= i < |s| ==> !IsUpper(s[i])
    ensures Lower(Lower(s)) == Lower(s)
  {
    if Lower(s) == s {
      forall i | 0 <= i < |s|
        ensures !IsUpper(s[i])
      {
        assert s[i] == Lower(s)[i];
      }
    }
  }

  /** The length of the leading whitespace run of `s`. */
  function SpaceRun(s: string): (n: nat)
    ensures n <= |s|
    ensures forall i :: 0 <= i < n ==> IsSpace(s[i])
    ensures n == |s| || !IsSpace(s[n])
  {
    if s != [] && IsSpace(s[0]) then 1 + SpaceRun(s[1..]) else 0
  }

  /** `s.lstrip()`: the suffix of `s` left after its leading whitespace. */
  function LStrip(s: string): (r: string)
    ensures |r| <= |s| && r == s[|s| - |r|..]
    ensures forall i :: 0 <= i < |s| - |r| ==> IsSpace(s[i])
    ensures r == [] || !IsSpace(r[0])
  {
    s[SpaceRun(s)..]
  }

  /** The length of the leading digit run of `s`. */
  function DigitRun(s: string): (n: nat)
    ensures n <= |s|
    ensures forall i :: 0 <= i < n ==> IsDigit(s[i])
    ensures n == |s| || !IsDigit(s[n])
  {
    if s != [] && IsDigit(s[0]) then 1 + DigitRun(s[1..]) else 0
  }

  /** `re.sub("^\d+", "", s)`: the suffix of `s` left after its leading digit run. */
  function DropDigits(s: string): (r: string)
    ensures |r| <= |s| && r == s[|s| - |r|..]
    ensures forall i :: 0 <= i < |s| - |r| ==> IsDigit(s[i])
    ensures r == [] || !IsDigit(r[0])
  {
    s[DigitRun(s)..]
  }

  /** The longest whitespace-free prefix of `s`. */
  function Word(s: string): (w: string)
    ensures |w| <= |s| && w == s[..|w|]
    ensures forall i :: 0 <= i < |w| ==> !IsSpace(w[i])
    ensures |w| == |s| || IsSpace(s[|w|])
  {
    if s != [] && !IsSpace(s[0]) then [s[0]] + Word(s[1..]) else []
  }

  /** Every element of `ws` is a token. */
  predicate AllTokens(ws: seq<string>) {
    forall i :: 0 <= i < |ws| ==> IsToken(ws[i])
  }

  lemma WordIsToken(t: string)
    requires t != [] && !IsSpace(t[0])
    ensures IsToken(Word(t))
  {
    assert Word(t)[0] == t[0];
  }

  lemma AllTokensCons(w: string, rest: seq<string>)
    requires IsToken(w) && AllTokens(rest)
    ensures AllTokens([w] + rest)
  {
  }

  /** `s.split()`: the maximal whitespace-free runs of `s`, in order. */
  function Split(s: string): (ws: seq<string>)
    ensures AllTokens(ws)
    decreases |s|
  {
    var t := LStrip(s);
    if t == [] then []
    else
      var w := Word(t);
      WordIsToken(t);
      var rest := Split(t[|w|..]);
      AllTokensCons(w, rest);
      [w] + rest
  }

  /** `' '.join(ws)`. */
  function JoinSpace(ws: seq<string>): string {
    if ws == [] then ""
    else if |ws| == 1 then ws[0]
    else ws[0] + " " + JoinSpace(ws[1..])
  }

  /** Splitting yields nothing exactly when the string is all whitespace. */
  lemma {:induction false} SplitEmptyIffAllSpace(s: string)
    ensures Split(s) == [] <==> AllSpace(s)
  {
    var t := LStrip(s);
    assert s == s[..|s| - |t|] + t;
    if t == [] {
      assert s == s[..|s| - |t|];
    } else {
      assert !IsSpace(s[|s| - |t|]);
    }
  }

  lemma LStripOfToken(w: string, rest: string)
    requires IsToken(w)
    ensures LStrip(w + rest) == w + rest
  {
  }

  lemma {:induction false} LStripSpaceCons(c: char, rest: string)
    requires IsSpace(c)
    ensures LStrip([c] + rest) == LStrip(rest)
  {
    assert ([c] + rest)[1..] == rest;
    assert SpaceRun([c] + rest) == 1 + SpaceRun(rest);
  }

  /** `lstrip()` removes exactly a leading whitespace run. */
  lemma {:induction false} LStripSpacePrefix(lead: string, body: string)
    requires AllSpace(lead)
    requires body == [] || !IsSpace(body[0])
    ensures LStrip(lead + body) == body
    decreases |lead|
  {
    if lead == [] {
      assert lead + body == body;
    } else {
      assert lead + body == [lead[0]] + (lead[1..] + body);
      LStripSpaceCons(lead[0], lead[1..] + body);
      LStripSpacePrefix(lead[1..], body);
    }
  }

  lemma {:induction false} WordOfToken(w: string, rest: string)
    requires IsToken(w)
    requires rest == [] || IsSpace(rest[0])
    ensures Word(w + rest) == w
    decreases |w|
  {
    if |w| == 1 {
      assert (w + rest)[1..] == rest;
      if rest != [] {
        assert Word(rest) == [];
      }
    } else {
      assert (w + rest)[1..] == w[1..] + rest;
      WordOfToken(w[1..], rest);
      assert [w[0]] + w[1..] == w;
    }
  }

  /** A leading whitespace character, of any kind, does not change the split. */
  lemma SplitSpaceCons(c: char, rest: string)
    requires IsSpace(c)
    ensures Split([c] + rest) == Split(rest)
  {
    LStripSpaceCons(c, rest);
  }

  /** Nor does a whole leading run of whitespace. */
  lemma {:induction false} SplitSpacePrefix(lead: string, rest: string)
    requires AllSpace(lead)
    ensures Split(lead + rest) == Split(rest)
    decreases |lead|
  {
    if lead == [] {
      assert lead + rest == rest;
    } else {
      assert lead + rest == [lead[0]] + (lead[1..] + rest);
      SplitSpaceCons(lead[0], lead[1..] + rest);
      SplitSpacePrefix(lead[1..], rest);
    }
  }

  /** Splitting what `lstrip()` leaves gives the split of the whole string. */
  lemma SplitOfLStrip(s: string)
    ensures Split(LStrip(s)) == Split(s)
  {
    var n := SpaceRun(s);
    assert s == s[..n] + s[n..];
    SplitSpacePrefix(s[..n], s[n..]);
  }

  /** Splitting a token followed by whitespace (or nothing) peels off that token. */
  lemma SplitTokenThen(w: string, rest: string)
    requires IsToken(w)
    requires rest == [] || IsSpace(rest[0])
    ensures Split(w + rest) == [w] + Split(rest)
  {
    LStripOfToken(w, rest);
    WordOfToken(w, rest);
    assert (w + rest)[|w|..] == rest;
  }

  lemma ConcatAssoc(a: string, b: string, c: string)
    ensures (a + " " + b) + c == a + (" " + (b + c))
  {
  }

  lemma Singleton(ws: seq<string>)
    requires |ws| == 1
    ensures [ws[0]] + [] == ws
  {
  }

  /** `split()` inverts `' '.join` on lists of tokens, whatever whitespace
      ends the line. */
  lemma {:induction false} SplitJoinSpace(ws: seq<string>, tail: string)
    requires forall i :: 0 <= i < |ws| ==> IsToken(ws[i])
    requires AllSpace(tail)
    ensures Split(JoinSpace(ws) + tail) == ws
  {
    if ws == [] {
      assert JoinSpace(ws) + tail == tail;
      SplitEmptyIffAllSpace(tail);
    } else if |ws| == 1 {
      Singleton(ws);
      assert JoinSpace(ws) + tail == ws[0] + tail;
      SplitTokenThen(ws[0], tail);
      SplitEmptyIffAllSpace(tail);
    } else {
      var j := JoinSpace(ws[1..]);
      var more := j + tail;
      assert JoinSpace(ws) == ws[0] + " " + j;
      calc {
        Split(JoinSpace(ws) + tail);
        { ConcatAssoc(ws[0], j, tail); }
        Split(ws[0] + (" " + more));
        { SplitTokenThen(ws[0], " " + more); }
        [ws[0]] + Split(" " + more);
        { SplitSpaceCons(' ', more); }
        [ws[0]] + Split(more);
        { SplitJoinSpace(ws[1..], tail); }
        [ws[0]] + ws[1..];
        ws;
      }
    }
  }

  /** Tokens, each preceded by its own run of whitespace: `seps[0] + ws[0] +
      seps[1] + ws[1] + ...`. */
  function Interleave(seps: seq<string>, ws: seq<string>): string
    requires |seps| == |ws|
  {
    if ws == [] then "" else seps[0] + ws[0] + Interleave(seps[1..], ws[1..])
  }

  /** Whitespace runs that may separate tokens: the first may be empty,
      every later one may not. */
  predicate Separators(seps: seq<string>) {
    forall i :: 0 <= i < |seps| ==> AllSpace(seps[i]) && (i > 0 ==> seps[i] != [])
  }

  /** `s` is laid out as the tokens `ws`, each after its own separator, with
      the whitespace `tail` at the end. */
  predicate Layout(s: string, seps: seq<string>, ws: seq<string>, tail: string) {
    && |seps| == |ws| && Separators(seps) && AllTokens(ws) && AllSpace(tail)
    && s == Interleave(seps, ws) + tail
  }

  lemma SeparatorsTail(seps: seq<string>)
    requires seps != [] && Separators(seps)
    ensures Separators(seps[1..])
  {
    assert forall i :: 0 <= i < |seps[1..]| ==> seps[1..][i] == seps[i + 1];
  }

  /** `split()` reads back the tokens of any layout, whatever whitespace
      separates, precedes or follows them. */
  lemma {:induction false} SplitOfLayout(s: string, seps: seq<string>, ws: seq<string>, tail: string)
    requires Layout(s, seps, ws, tail)
    ensures Split(s) == ws
    decreases |ws|
  {
    if ws == [] {
      assert s == tail;
      SplitEmptyIffAllSpace(tail);
    } else {
      var more := Interleave(seps[1..], ws[1..]) + tail;
      SeparatorsTail(seps);
      assert Layout(more, seps[1..], ws[1..], tail);
      assert more == [] || IsSpace(more[0]) by {
        if ws[1..] == [] {
          assert more == tail;
        } else {
          assert seps[1] != [];
          assert more[0] == seps[1][0];
        }
      }
      assert s == seps[0] + (ws[0] + more);
      calc {
        Split(s);
        { SplitSpacePrefix(seps[0], ws[0] + more); }
        Split(ws[0] + more);
        { SplitTokenThen(ws[0], more); }
        [ws[0]] + Split(more);
        { SplitOfLayout(more, seps[1..], ws[1..], tail); }
        [ws[0]] + ws[1..];
        ws;
      }
    }
  }

  /** The separators `split()` discards in front of each token, and the
      whitespace it discards at the end. */
  function Gaps(s: string): (seq<string>, string)
    decreases |s|
  {
    var n := SpaceRun(s);
    var t := s[n..];
    if t == [] then ([], s)
    else
      var w := Word(t);
      var g := Gaps(t[|w|..]);
      ([s[..n]] + g.0, g.1)
  }

  lemma SeparatorsCons(lead: string, seps: seq<string>)
    requires AllSpace(lead) && Separators(seps) && (seps == [] || seps[0] != [])
    ensures Separators([lead] + seps)
  {
    assert forall i :: 0 < i < |seps| + 1 ==> ([lead] + seps)[i] == seps[i - 1];
  }

  lemma InterleaveCons(sep: string, w: string, seps: seq<string>, ws: seq<string>)
    requires |seps| == |ws|
    ensures Interleave([sep] + seps, [w] + ws) == sep + w + Interleave(seps, ws)
  {
    assert ([sep] + seps)[1..] == seps && ([w] + ws)[1..] == ws;
  }

  /** After a token, the next separator `Gaps` finds is not empty. */
  lemma GapsFirst(rest: string)
    requires rest == [] || IsSpace(rest[0])
    ensures Gaps(rest).0 == [] || Gaps(rest).0[0] != []
  {
    if rest != [] {
      assert SpaceRun(rest) >= 1;
    }
  }

  /** Every string is laid out as its own split, with the separators and
      tail that `Gaps` finds. */
  lemma {:induction false} LayoutOfSplit(s: string)
    ensures Layout(s, Gaps(s).0, Split(s), Gaps(s).1)
    decreases |s|
  {
    var n := SpaceRun(s);
    var t := s[n..];
    if t == [] {
      assert s == s[..n];
    } else {
      var w := Word(t);
      var rest := t[|w|..];
      WordIsToken(t);
      LayoutOfSplit(rest);
      GapsFirst(rest);
      var g := Gaps(rest);
      var ws := Split(rest);
      assert Split(s) == [w] + ws;
      assert Gaps(s) == ([s[..n]] + g.0, g.1);
      SeparatorsCons(s[..n], g.0);
      SliceParts(s, n, |w|);
      LayoutCons(s, s[..n], w, rest, g.0, ws, g.1);
    }
  }

  lemma SliceParts(s: string, n: nat, k: nat)
    requires n + k <= |s|
    ensures s == s[..n] + (s[n..][..k] + s[n..][k..])
  {
    assert s[n..] == s[n..][..k] + s[n..][k..];
  }

  lemma LayoutCons(s: string, lead: string, w: string, rest: string,
                   seps: seq<string>, ws: seq<string>, tail: string)
    requires |seps| == |ws|
    requires s == lead + (w + rest) && rest == Interleave(seps, ws) + tail
    ensures s == Interleave([lead] + seps, [w] + ws) + tail
  {
    InterleaveCons(lead, w, seps, ws);
  }

  /** `split()` is characterised by layouts: it yields `ws` exactly when the
      string is `ws` laid out with some separators and some trailing
      whitespace. */
  lemma SplitIffLayout(s: string, ws: seq<string>)
    ensures Split(s) == ws <==> exists seps, tail :: Layout(s, seps, ws, tail)
  {
    if Split(s) == ws {
      LayoutOfSplit(s);
    } else {
      forall seps, tail | Layout(s, seps, ws, tail)
        ensures false
      {
        SplitOfLayout(s, seps, ws, tail);
      }
    }
  }
}

=== FILE: wrappers.dfy ===
/** Optional values and fault-carrying results.

    `Result` stands for a Python call that either returns a value or raises an
    exception; a raised exception is kept only through its message, which is
    what the session engine ever does with one (`str(e)`).
 */
module Wrappers {

  datatype Option<+T> = None | Some(value: T)

  /** The outcome of a collaborator call: a value, or a raised fault. */
  datatype Result<+T> = Ok(value: T) | Fault(message: string)
}
